=== FILE: README.md ===
# AlertoDePin client logic in Dafny

AlertoDePin is an emergency-alert system. Citizens raise alerts with a GPS position,
and police, fire and hospital responders watch them on live maps and take them on. This
project models the pure logic underneath the React client's rendering:

- the two global stores: the notification queue and the alert store;
- the map helpers:
  - which alerts and online users get a marker, and at which position;
  - which pin or style each gets;
  - when the viewport is refit;
  - when a route can be requested;
  - the ETA label;
- the alert card's derivations;
- each dashboard's alert list, written as a state that fetches, push events and user actions transform:
  - the citizen dashboard, the fire and hospital dashboards, the live map page and the "My Alerts" page;
  - their liveness flags;
  - their notification texts, where the fire and hospital dashboards' two-argument notice calls queue the corrected entry described under Findings;
  - the predicates that decide which action buttons a card shows;
- the password and signup validation, the settings form, and the sidebar menu.

JavaScript semantics are written out:
- absent properties are `None`;
- truthiness is explicit: empty strings and `0` are falsy;
- `a._id || a.id` is `Domain.Key`;
- `===` on two missing ids is true;
- `trim` uses the ECMAScript white-space set;
- `length` counts UTF-16 code units.

Every page handler that raises notifications returns the raised notification inputs in
order, beside the new list. A REST call's outcome is a parameter of type `ApiResult`.

Modules:
- `Wrappers`, `Seqs` and `JsValues` are the infrastructure.
- `Domain` holds the records.
- `Store`, `Eta`, `Markers`, `LiveMap`, `MapboxMap` and `AlertCard` cover the stores and map helpers.
- `NewestFirst`, `Realtime`, `Passwords`, `Citizen`, `Fire`, `Hospital`, `MapPage`, `AlertsPage`, `Settings`, `Signup` and `Sidebar` cover the pages.

## Model

| member | source | states |
|---|---|---|
| Store.Stamp | src/context/store.js:6-10 | a caller-supplied `id` or `timestamp` overrides the generated one; type, title and message are the caller's |
| Store.AddNotification | src/context/store.js:12-14 | the new entry is at index 0, the old queue follows unchanged, and the length grows by one |
| Store.RemoveNotification | src/context/store.js:16-18 | no entry with the id survives; every other entry keeps its multiplicity; the result is an order-preserving subsequence |
| Store.RemoveAbsentId | src/context/store.js:16-18 | removing an id nobody carries leaves the queue unchanged |
| Store.AddThenRemove | src/context/store.js:5-18 | removing the id just generated undoes an add, when the clock id was fresh |
| Store.ClearNotifications | src/context/store.js:19 | clearing yields the empty queue |
| Store.ClearThenAdd | src/context/store.js:12-19 | after a clear, an add leaves exactly the one new entry |
| Store.ShownKind | src/components/NotificationPanel.jsx:36-39 | the panel uses the entry's type only if it is one of the four known ones; otherwise `info` |
| Store.SpreadText | src/pages/DashboardFire.jsx:58 | as written, a positional `addNotification(text, kind)` queues an entry with no type, title or message |
| Store.SpreadTextShowsDefaults | src/pages/DashboardFire.jsx:227 | such an entry is shown with the generic title and message in the `info` style, whatever the text |
| Store.SpreadTextLosesError | src/pages/DashboardFire.jsx:227 | the "Alert not found" error is shown neither with its text nor as an error |
| Store.TextNotice | src/pages/DashboardHospital.jsx:44 | the corrected entry carries the text as its message and the second argument as its type |
| Store.TextNoticeShowsText | src/pages/DashboardHospital.jsx:142 | the corrected entry is shown with the caller's text in the caller's style |
| Store.SetAlerts | src/context/store.js:25 | the list becomes the argument; the focused alert is kept |
| Store.AddAlert | src/context/store.js:26-28 | one alert is prepended and the rest follows unchanged |
| Store.SetActiveAlert | src/context/store.js:29 | only the focus changes |
| Store.UpdateAlertStatus | src/context/store.js:30-34 | length and order are kept; alerts whose `id` matches get the status; no other field and no other alert changes |
| Store.UpdateAlertStatusIdempotent | src/context/store.js:30-34 | applying the same update twice equals applying it once |
| Eta.FormatEta | src/components/LiveMap.jsx:57-65 | below 60 minutes the label is "N min", otherwise "Hh Mm"; `ParseEta` reads every label back to its minutes |
| Eta.HourFormRoundTrip | src/components/LiveMap.jsx:61-64 | an hour-form label with minutes below 60 reads back as `60h + m` |
| Eta.FormatEtaInjective | src/components/LiveMap.jsx:57-65 | no two durations share a label |
| Eta.OneHourBoundary | src/components/MapboxMap.jsx:42-50 | 59 minutes is "59 min" and 60 minutes is "1h 0m" |
| Markers.PinFor | src/components/LiveMap.jsx:265 | police, hospital and fire get their pins, and every other or missing type gets the default pin |
| Markers.StyleFor | src/components/LiveMap.jsx:331-336 | the five known user types get their styles, and every other type gets the default style |
| Markers.FromLngLat | src/components/LiveMap.jsx:191-201 | element 0 of a coordinate array is the longitude and element 1 the latitude; a missing element is `undefined` |
| LiveMap.MarkerCoords | src/components/LiveMap.jsx:184-205 | `alert.coordinates` wins; an alert without it and without a structured location has no coordinates |
| LiveMap.MarkerPoint | src/components/LiveMap.jsx:208-217 | a marker position exists iff the looked-up latitude and longitude are both truthy, and it equals them |
| LiveMap.EncodingsAgree | src/components/LiveMap.jsx:184-205 | the flat object, GeoJSON, bare-array and nested-object encodings of one position give the same marker |
| LiveMap.CoordinatesShadowLocation | src/components/LiveMap.jsx:186-188 | a present `alert.coordinates` makes the location irrelevant |
| LiveMap.ZeroLatitudeSkipped | src/components/LiveMap.jsx:208 | an alert at latitude 0 gets no marker |
| LiveMap.AlertMarkers | src/components/LiveMap.jsx:176-290 | the marked alerts are exactly the alerts with a position, in order; each marker sits at that position with the type's pin |
| LiveMap.UserMarkers | src/components/LiveMap.jsx:293-369 | every user with a `location` gets one marker at it, in order, with the style for its type |
| LiveMap.MarkerIgnoresType | src/components/LiveMap.jsx:265 | whether an alert is drawn does not depend on its type |
| LiveMap.AlertMarkerCount | src/components/LiveMap.jsx:286-289 | the number of alert markers is the number of alerts with a position |
| LiveMap.AutoFit | src/components/LiveMap.jsx:374-406 | a refit happens only through the gate, and covers the alerts' and users' positions plus the device's own position |
| LiveMap.AutoFitGate | src/components/LiveMap.jsx:374 | the refit runs iff something is drawn, the map is still, nothing is selected, and some point survives the refit's own lookup |
| LiveMap.BareArrayDrawnButNotFitted | src/components/LiveMap.jsx:378-389 | a bare-array alert gets a marker but contributes no refit point |
| LiveMap.NavigateCoords | src/components/LiveMap.jsx:70-81 | the navigation lookup prefers `item.coordinates`, then GeoJSON, then the location itself |
| LiveMap.Navigate | src/components/LiveMap.jsx:67-87 | nothing happens without a map or a device position, or when the lookup lacks a truthy latitude or longitude; otherwise the route runs from the device to the looked-up point |
| LiveMap.NavigateAgreesWithMarker | src/components/LiveMap.jsx:67-87 | for `coordinates` and GeoJSON alerts, a route is requested iff the alert has a marker, and it goes to the marker |
| LiveMap.NavigateDiffersFromMarker | src/components/LiveMap.jsx:74-84 | a bare-array alert is drawn but not routable; a flat `{lat,lng}` location is routable but not drawn |
| LiveMap.AfterDirections | src/components/LiveMap.jsx:102-148 | a response with at least one route shows it; anything else leaves the flag as it was |
| LiveMap.ClearRoute | src/components/LiveMap.jsx:156-166 | with a map the route flag is cleared; without one nothing changes |
| LiveMap.ShowThenClear | src/components/LiveMap.jsx:148-164 | after showing a route, clearing it leaves no route shown |
| MapboxMap.CoordinateMarkers | src/components/MapboxMap.jsx:142-213 | exactly the alerts with `coordinates` get a marker, one each, in order, with the type's pin |
| MapboxMap.RenderMarkers | src/components/MapboxMap.jsx:138-220 | nothing at all happens without a map or with no alerts; otherwise the markers are redrawn, and the map flies to the first alert iff it has coordinates |
| MapboxMap.FlyToFirstMarker | src/components/MapboxMap.jsx:218-220 | the fly-to target is the first alert's coordinates exactly when that alert is drawn first |
| MapboxMap.LocationOnlySkipped | src/components/MapboxMap.jsx:142-143 | an alert that has only a location gets no marker |
| MapboxMap.Navigate | src/components/MapboxMap.jsx:52-57 | nothing happens without a map or a position; an alert without `coordinates` throws; otherwise the route goes to `coordinates` |
| MapboxMap.DrawnAlertsRoutable | src/components/MapboxMap.jsx:52-57 | every drawn alert can be routed to, at its marker's position |
| AlertCard.BadgeFor | src/components/AlertCard.jsx:4-13 | each known status gets its own badge, and an unknown or missing status gets the pending badge |
| AlertCard.BadgeRoundTrip | src/components/AlertCard.jsx:4-13 | every badge is chosen by its own status string |
| AlertCard.LocationLabel | src/components/AlertCard.jsx:17 | the card shows the address, else a non-empty string location, else "Unknown location"; an object without an address is rendered raw |
| AlertCard.ShownTime | src/components/AlertCard.jsx:18 | the card shows `createdAt`, else `timestamp` |
| AlertCard.ReporterLabel | src/components/AlertCard.jsx:19 | the card shows the reporter's name, else a non-empty raw reporter id, else "Unknown"; a reporter record without a name is rendered raw |
| AlertCard.CardCoords | src/components/AlertCard.jsx:22-24 | GeoJSON, read as `[lng, lat]`, takes precedence over `alert.coordinates` |
| AlertCard.CardAgreesWithMapOnSingleSource | src/components/AlertCard.jsx:22-24 | when only one of the two sources is present, the card and the live map read the same coordinates |
| AlertCard.CardAndMapDisagreeOnBoth | src/components/AlertCard.jsx:22-24 | when both sources are present and differ, the card and the map disagree |
| NewestFirst.Sort | src/pages/DashboardCitizen.jsx:250 | the result is a permutation of the input with `createdAt` non-increasing |
| NewestFirst.SortKeepsSorted | src/pages/AlertsPage.jsx:34 | a list already newest first is returned unchanged |
| NewestFirst.SortIdempotent | src/pages/AlertsPage.jsx:34 | sorting twice equals sorting once |
| Realtime.UpdateLocation | src/pages/DashboardFire.jsx:113-123 | only the first roster entry with the event's `userId` gets the new location; without such an entry nothing changes |
| Realtime.UpdateLocationKeepsRoster | src/pages/MapPage.jsx:88-97 | nobody is added, removed, reordered or renamed: only `location` values change |
| Realtime.UpdateLocationIdempotent | src/pages/MapPage.jsx:88-97 | repeating a location update changes nothing further |
| Realtime.PushKind | src/pages/DashboardHospital.jsx:100 | `alert_responded` maps to success, `alert` to warning, and everything else to info |
| Realtime.PushNotice | src/pages/DashboardFire.jsx:142-158 | a pushed notification keeps its title and message, with defaults, under the mapped type |
| Realtime.PushNoticeKnownKind | src/pages/DashboardFire.jsx:145-152 | the panel shows every pushed notification in its mapped type |
| Fire.OnFetched | src/pages/DashboardFire.jsx:43-60 | a fetch replaces the list with the fetched open fire incidents; a failure queues the corrected `Store.TextNotice` error entry |
| Fire.FetchedAreFireIncidents | src/pages/DashboardFire.jsx:49-54 | an alert is listed after a fetch iff it was fetched, is a fire, and is neither resolved nor cancelled |
| Fire.Receive | src/pages/DashboardFire.jsx:106-158 | an open fire incident is prepended with a notice and nothing else changes, any other alert is ignored; a roster event replaces the roster and a location event goes through `UpdateLocation`; a pushed notification is queued through `PushNotice`; only a new fire incident changes the list; after teardown nothing changes |
| Fire.UnsubscribedIgnoresEvents | src/pages/DashboardFire.jsx:108-143 | once the subscription flag is false, any sequence of events leaves the state unchanged |
| Fire.TeardownIsFinal | src/pages/DashboardFire.jsx:181-192 | whatever arrives after a teardown, the state is the one the teardown left |
| Fire.EventsOnlyPrepend | src/pages/DashboardFire.jsx:126-139 | push events only add alerts at the front; the alerts already listed stay in order |
| Fire.Stats | src/pages/DashboardFire.jsx:196-216 | the tiles count the active alerts, the pending alerts and the roster |
| Fire.StatsBounded | src/pages/DashboardFire.jsx:196-208 | active plus pending never exceeds the list |
| Fire.HandleRespond | src/pages/DashboardFire.jsx:223-243 | an unknown id queues the corrected "Alert not found" error and calls nothing; after success the alerts with the id, and only they, become responded by the user, the returned alert (or the listed one) is selected, the roster and flag are kept, and the corrected success entry is queued |
| Fire.HandleMarkArrived | src/pages/DashboardFire.jsx:245-258 | after success the alerts with the id become active with the arrival time, the selection, roster and flag are kept, and the corrected success entry is queued; a failure queues the corrected entry with the fallback text and changes nothing else |
| Fire.HandleResolve | src/pages/DashboardFire.jsx:260-271 | after success the alerts with the id leave the list, the selection is cleared iff its `_id` or `id` is that id, the roster and flag are kept, and the corrected success entry is queued; a failure only queues the corrected error entry |
| Fire.ResolveRemovesExactly | src/pages/DashboardFire.jsx:264-265 | no listed alert carries the id afterwards, the others stay in order, and a selected alert with that id is cleared |
| Fire.ActionGroupsExclusive | src/pages/DashboardFire.jsx:321-333 | a card never offers two of Respond, Arrived/Resolve and Resolve-only at once |
| Fire.RespondThenArrive | src/pages/DashboardFire.jsx:233-251 | after Respond the card offers Arrived/Resolve and not Respond; after Arrived it offers only Resolve |
| Hospital.OnFetched | src/pages/DashboardHospital.jsx:31-55 | after the effect is cleaned up a fetch result is dropped; otherwise the list becomes the fetched hospital alerts; a failure queues the corrected `Store.TextNotice` error entry either way |
| Hospital.FetchKeepsWhatPushRejects | src/pages/DashboardHospital.jsx:40 | a resolved hospital alert is kept by the fetch but never admitted by a push |
| Hospital.Receive | src/pages/DashboardHospital.jsx:84-123 | an open hospital alert is prepended with a notice, any other alert is ignored; a roster event replaces the roster; a pushed notification is queued through `PushNotice`; no other event changes the list; after teardown the push handlers do nothing |
| Hospital.CleanedUpIgnoresAll | src/pages/DashboardHospital.jsx:33-60 | after both cleanups no event and no late successful fetch changes the state; a late failure still queues its error |
| Hospital.Stats | src/pages/DashboardHospital.jsx:24-27 | the tiles count the active, pending and responded alerts |
| Hospital.DispatchTarget | src/pages/DashboardHospital.jsx:131 | the target is the argument when truthy, else the selected alert's `_id || id` |
| Hospital.HandleDispatch | src/pages/DashboardHospital.jsx:129-152 | the API is called iff the target is truthy; after success only the alerts with the target id become responded by the user, every other field is kept, and the corrected success entry is queued; without a target, or on failure, the corrected error entry is queued |
| Hospital.DispatchHidesButton | src/pages/DashboardHospital.jsx:246-250 | a successful dispatch from a card hides that card's dispatch button |
| Hospital.DispatchButtonsAndRespondedTile | src/pages/DashboardHospital.jsx:27 | the cards showing a dispatch button plus the "Responded" tile add up to the list length |
| MapPage.OnFetched | src/pages/MapPage.jsx:21-35 | the list becomes exactly the fetched active and pending alerts, in order and with their multiplicities; a response without `data` changes nothing |
| MapPage.Receive | src/pages/MapPage.jsx:83-104 | an active or pending pushed alert is prepended and any other is ignored; the roster is replaced or location-updated |
| MapPage.ListStaysOpen | src/pages/MapPage.jsx:100-104 | starting from a fetched list, any sequence of events keeps every listed alert active or pending |
| MapPage.FilterByType | src/pages/MapPage.jsx:139-141 | the `all` filter returns the list unchanged; any other returns the order-preserving subsequence of that type, with multiplicities kept |
| MapPage.RecentAlerts | src/pages/MapPage.jsx:281 | the grid shows the first six filtered alerts, or all of them when there are fewer |
| MapPage.GridShownIffMatch | src/pages/MapPage.jsx:275 | the "Recent Alerts" grid appears iff some alert passes the filter |
| Passwords.Check | src/pages/SettingsPage.jsx:88-105 | a mismatch is reported first; a matching password shorter than six UTF-16 units is too short; everything else is accepted |
| Passwords.ThreeEmojiAccepted | src/pages/SettingsPage.jsx:98 | three astral characters pass the six-character rule |
| Passwords.ChangePassword | src/pages/SettingsPage.jsx:88-130 | the request is sent iff the check accepts, and carries the current and new passwords; success clears and closes the form; any other outcome leaves the form as it was |
| Passwords.SentPasswordValid | src/pages/DashboardCitizen.jsx:431-454 | any password the endpoint receives matches its confirmation and is at least six units long |
| Passwords.ClearedFormRejected | src/pages/DashboardCitizen.jsx:463 | after a successful change, pressing again on the cleared form sends nothing |
| Citizen.MyAlerts | src/pages/DashboardCitizen.jsx:245-250 | the user's alerts are exactly those whose reporter matches the user id, newest first, with multiplicities kept |
| Citizen.MyAlertsExact | src/pages/DashboardCitizen.jsx:245-247 | for a signed-in user an alert is kept iff its raw reporter id or its embedded reporter `_id` is the user's id |
| Citizen.OnFetched | src/pages/DashboardCitizen.jsx:236-261 | a fetch replaces the list with the user's alerts; a failure raises an error quoting the message |
| Citizen.MergeLaws | src/pages/DashboardCitizen.jsx:129-133 | the spread merge has the empty alert as unit, is associative, and merging a patch twice is merging it once |
| Citizen.MergeKeepsAbsentFields | src/pages/DashboardCitizen.jsx:129-133 | fields the incoming alert lacks, such as the responder, keep their old values, and fields it carries win |
| Citizen.UpdatedNotice | src/pages/DashboardCitizen.jsx:111-126 | "Responder Arrived!" for active with `arrivedAt`, "Incident Resolved" for resolved, and "Alert Update" with the message otherwise |
| Citizen.Receive | src/pages/DashboardCitizen.jsx:91-150 | each event appends exactly one notice to the queue, keeping the earlier ones: "Responder On The Way!" with the message or the responder's name, the update notice, or "Alert Update" with the message or "Alert status updated"; it rewrites only the alerts sharing the event alert's `_id`: responded with the event's responder, merged, or cancelled; a missing update changes no alert |
| Citizen.UpdateIdempotent | src/pages/DashboardCitizen.jsx:129-133 | receiving the same update twice leaves the list as receiving it once |
| Citizen.RespondedHidesCancel | src/pages/DashboardCitizen.jsx:773-785 | once a response with a responder arrives, the card shows "Help is on the way" and no Cancel button |
| Citizen.CancelAndBadgeExclusive | src/pages/DashboardCitizen.jsx:773-785 | a card never shows Cancel and "Help is on the way" together |
| Citizen.ReportAddress | src/pages/DashboardCitizen.jsx:325-337 | the looked-up name when truthy, else "Location from GPS"; after a failed lookup, the profile address, else the coordinates text |
| Citizen.CreatePayload | src/pages/DashboardCitizen.jsx:339-352 | the payload keeps the form's texts, uses the selected type and priority "high", and carries the address |
| Citizen.CreatedAlertPlottedWhereReported | src/pages/DashboardCitizen.jsx:344-347 | the payload's `[longitude, latitude]` point is drawn by the live map at the reported latitude and longitude |
| Citizen.ConfirmSendAlert | src/pages/DashboardCitizen.jsx:306-401 | a blank description raises "Missing Information" and sends nothing; with a position, `[longitude, latitude]` goes to the location endpoint first; the alert is created iff the description is not blank, a position was obtained and the location update succeeded, carrying the reported address; a created alert that succeeds clears the form; every other outcome keeps the form and raises an error, quoting the failing call's message |
| Citizen.FailedLocationUpdateBlocksCreate | src/pages/DashboardCitizen.jsx:354-378 | a rejected location update means no alert is created, the form is kept, and "Failed to Send Alert" is raised |
| Citizen.WhitespaceDescriptionRejected | src/pages/DashboardCitizen.jsx:307 | a description of spaces, tabs and newlines sends nothing |
| AlertsPage.Fetched | src/pages/AlertsPage.jsx:30-36 | the page lists all fetched alerts, newest first |
| AlertsPage.SearchAsWritten | src/pages/AlertsPage.jsx:63-65 | the search throws iff neither type nor description matches and the location is an object |
| AlertsPage.SearchAgreesWhereDefined | src/pages/AlertsPage.jsx:63-65 | wherever the written search returns, it agrees with the corrected one |
| AlertsPage.SearchThrowsOnStructuredLocation | src/pages/AlertsPage.jsx:65 | a fire alert with a structured location, searched for "flooding", throws as written |
| AlertsPage.Filtered | src/pages/AlertsPage.jsx:61-67 | an alert is shown iff it passes the status filter and the case-insensitive search, in list order and with its multiplicity |
| AlertsPage.FilteredAsWritten | src/pages/AlertsPage.jsx:61-67 | the written filter fails iff some alert's search throws, whatever its status; otherwise it equals the corrected filter |
| AlertsPage.EmptySearchShowsTyped | src/pages/AlertsPage.jsx:61-67 | with no query and the `all` filter, every alert carrying a type is shown |
| AlertsPage.Counts | src/pages/AlertsPage.jsx:69-75 | `all` is the list length, and each tile is the number of alerts with that status |
| AlertsPage.CountsPartition | src/pages/AlertsPage.jsx:69-75 | the four status tiles add up to at most `all`, and to exactly `all` iff every alert has one of the four statuses |
| AlertsPage.CancelAndBadgeExclusive | src/pages/AlertsPage.jsx:301-315 | Cancel and the "Active" badge never appear together; an active alert always shows one of them |
| AlertsPage.StatusColor | src/pages/AlertsPage.jsx:87-95 | an unknown status gets the grey default colour |
| AlertsPage.IconFor | src/pages/AlertsPage.jsx:77-85 | an unknown status gets the default icon |
| AlertsPage.StylingFallsBackTogether | src/pages/AlertsPage.jsx:77-95 | colour and icon fall back together, and only for unknown statuses; known statuses get distinct colours |
| Settings.InitForm | src/pages/SettingsPage.jsx:43-54 | with a user, every field is the user's value or `''`; without one the form is kept |
| Settings.InitFormFromUserOnly | src/pages/SettingsPage.jsx:43-54 | the initialised form does not depend on the previous form, and a complete user reads back exactly |
| Settings.ProfileRequest | src/pages/SettingsPage.jsx:59-63 | the update sends the name, contact number and address from the form |
| Settings.ProfileRequestIgnoresReadOnly | src/pages/SettingsPage.jsx:59-63 | email, role and status never reach the request |
| Settings.SaveUntouchedForm | src/pages/SettingsPage.jsx:43-63 | saving a freshly initialised form sends the user's own values |
| Settings.SaveNotice | src/pages/SettingsPage.jsx:69-82 | success raises "Profile Updated" / "Your profile information has been saved successfully."; a failure raises "Update Failed" with the error message or the fallback |
| Settings.Toggle | src/pages/SettingsPage.jsx:436 | the chosen switch flips and every other switch keeps its value |
| Settings.ToggleLaws | src/pages/SettingsPage.jsx:436 | flipping twice restores the settings, and flips of different switches commute |
| Signup.PayloadStripsOnlyConfirmation | src/pages/Signup.jsx:47-48 | the form is recovered from the body plus its confirmation, and the body does not depend on the confirmation |
| Signup.ValidationError | src/pages/Signup.jsx:34-42 | "Passwords do not match" iff they differ; the length error iff they match and are too short; no error iff the password check accepts |
| Signup.Submit | src/pages/Signup.jsx:30-60 | `register` is called iff validation passes, with the stripped body; success navigates to `/dashboard/<userType>`; a refusal shows its error or the fallback; a throw shows the generic error |
| Signup.NavigationImpliesValidPassword | src/pages/Signup.jsx:30-56 | the page navigates only after a confirmed, long-enough password, and every error shown is non-empty |
| Signup.InitialFormTooShort | src/pages/Signup.jsx:17-25 | submitting the untouched form reports the length error and sends nothing |
| Sidebar.MenuItems | src/components/Sidebar.jsx:19-37 | admins get 7 entries and everyone else 4; the first three are always the base entries; Settings is always last |
| Sidebar.PathsDistinct | src/components/Sidebar.jsx:20-36 | no two entries share a path, whatever the role string |
| Sidebar.DashboardLeadsToOwnRole | src/components/Sidebar.jsx:21 | the first entry leads to the user's own dashboard, and Settings is always present |

## Left out

- Socket.IO transport, reconnection and every `emit` are not modelled. Only the handlers and the liveness flags are. The geolocation callbacks at src/pages/DashboardFire.jsx:82-100 and 166-179 only emit, so their guards have no state to protect here.
- Geolocation, reverse geocoding and the REST client (`src/services/api.js`) become parameters: a `Position`, a `Geocode` and an `ApiResult`. Its `Error(data.message || ...)` shape is why the Arrived, Resolve and Cancel handlers always show their fallback text.
- The Mapbox directions request, route drawing, `fitBounds` geometry and DOM marker elements are not modelled. Only the accept, skip and variant decisions and the refit point lists are kept.
- Haversine distance, `Math.round` of fractional hours and `toFixed` formatting are left out. `Eta.FormatEta` starts from whole minutes, and the `toFixed(6)` address text is the `fixedText` parameter.
- Timers (polling, location republishing, auto-dismiss) and the 1-second reload after saving the profile are scheduling, not logic.
- `localStorage` and `src/context/AuthContext.jsx` are not part of this model; the signed-in user is a parameter.
- `src/hooks/useMapbox.js`, `src/App.jsx`, presentational components, `DashboardAdmin`, `DashboardFamily` and `vite.config.js` are not part of this model.
- The citizen dashboard's SOS shortcut (src/pages/DashboardCitizen.jsx:500-660) is an async fallback chain over location services and is not modelled.
- The "My Alerts" page's cancel handler is not modelled: it only calls the API and shows toasts.
- JSON `null` is not modelled: absent properties are `None`. Object-prototype keys used as types or statuses (`"toString"`) are not modelled.
- Citizen.Receive: requires the `alertResponded` and `alertCancelled` payloads to carry an alert; without one the source throws, and that path is not modelled.
- NewestFirst.Sort: requires every sorted alert to have `createdAt`, because the comparator returns NaN otherwise. Stability for equal timestamps is not stated.
- AlertsPage.Fetched: inherits `NewestFirst.Sort`'s requirement that every fetched alert has `createdAt`.
- Citizen.MyAlerts: inherits `NewestFirst.Sort`'s requirement that every alert of the user has `createdAt`.
- Citizen.OnFetched: inherits `NewestFirst.Sort`'s requirement that every alert of the user has `createdAt`.
- Fire.OnFetched: a failure queues the corrected `Store.TextNotice` entry (see Findings); the source's positional call queues `Store.SpreadText`'s empty entry.
- Fire.Receive: the "New fire alert" notice is the corrected `Store.TextNotice` entry (see Findings); the source's positional call queues `Store.SpreadText`'s empty entry.
- Fire.HandleRespond: its notices are the corrected `Store.TextNotice` entries (see Findings); the source's positional calls queue `Store.SpreadText`'s empty entry.
- Fire.HandleMarkArrived: its notices are the corrected `Store.TextNotice` entries (see Findings); the source's positional calls queue `Store.SpreadText`'s empty entry.
- Fire.HandleResolve: its notices are the corrected `Store.TextNotice` entries (see Findings); the source's positional calls queue `Store.SpreadText`'s empty entry.
- Hospital.OnFetched: a failure queues the corrected `Store.TextNotice` entry (see Findings); the source's positional call queues `Store.SpreadText`'s empty entry.
- Hospital.HandleDispatch: its notices are the corrected `Store.TextNotice` entries (see Findings); the source's positional calls queue `Store.SpreadText`'s empty entry.
- JsValues.ToLower: lowercases ASCII letters only; the source's `toLowerCase` covers all of Unicode.
- AlertCard.LocationLabel: React's refusal to render a raw object is the `RawObject` label, not an error.
- AlertCard.ReporterLabel: React's refusal to render a nameless reporter record is the `RawObject` label, not an error.
- Stale closures are not modelled: each handler reads the current state, while the source reads the render it was created in.

## Findings

| source | as written | input that shows it | evidently intended | confidence | as-written member | corrected member |
|---|---|---|---|---|---|---|
| src/pages/DashboardFire.jsx:58, 134, 227, 238, 241, 253, 256, 266, 269; src/pages/DashboardHospital.jsx:44, 142, 145, 149 | `addNotification(text, kind)` is called with two arguments, but the store takes one object and spreads it; a string spreads into character indices only | `addNotification('Alert not found', 'error')` queues an entry with no `type`, `title` or `message`; the panel shows "Notification" / "You have a new notification." as info | an entry whose message is the text and whose type is the kind | high, not executed | Store.SpreadText | Store.TextNotice |
| src/pages/AlertsPage.jsx:65 | `alert.location?.toLowerCase()` is called on whatever `location` holds; optional chaining only guards `null`/`undefined` | an alert of type "fire", description "smoke", location `{ address: 'Naga City' }`, search "flooding": the type and description miss, so `toLowerCase` is called on an object and throws a `TypeError` during render | only a string location is searched; an object location does not match | high, not executed | AlertsPage.SearchAsWritten | AlertsPage.Filtered |

=== FILE: alertcard.dfy ===
/** What an alert card displays, derived from the alert's loosely shaped fields. */
module AlertCard {
  import opened Wrappers
  import opened JsValues
  import opened Domain
  import opened Markers
  import LiveMap

  datatype StatusBadge = PendingBadge | ActiveBadge | RespondedBadge | ResolvedBadge | CancelledBadge

  /** The status each badge belongs to. */
  function BadgeStatus(b: StatusBadge): string {
    match b
    case PendingBadge => "pending"
    case ActiveBadge => "active"
    case RespondedBadge => "responded"
    case ResolvedBadge => "resolved"
    case CancelledBadge => "cancelled"
  }

  /** `statusConfig[alert.status] || statusConfig.pending`. */
  function BadgeFor(status: Option<string>): (b: StatusBadge)
    ensures b != PendingBadge ==> status == Some(BadgeStatus(b))
    ensures status.Some? && status.value in {"pending", "active", "responded", "resolved", "cancelled"} ==> BadgeStatus(b) == status.value
    ensures !(status.Some? && status.value in {"active", "responded", "resolved", "cancelled"}) ==> b == PendingBadge
  {
    match status
    case Some("active") => ActiveBadge
    case Some("responded") => RespondedBadge
    case Some("resolved") => ResolvedBadge
    case Some("cancelled") => CancelledBadge
    case _ => PendingBadge
  }

  /** Every badge is reached from its own status. */
  lemma BadgeRoundTrip(b: StatusBadge)
    ensures BadgeFor(Some(BadgeStatus(b))) == b
  {
  }

  /** A displayed value: some text, or the raw object itself when no text was found. */
  datatype Label = Said(text: string) | RawObject

  /** `alert.location?.address || alert.location || 'Unknown location'`. */
  function LocationLabel(a: Alert): (l: Label)
    ensures a.location.Structured? && TruthyStr(a.location.address) ==> l == Said(a.location.address.value)
    ensures a.location.Text? && |a.location.text| > 0 ==> l == Said(a.location.text)
    ensures a.location.NoLocation? || a.location == Text("") ==> l == Said("Unknown location")
    ensures l == RawObject <==> (a.location.Structured? && !TruthyStr(a.location.address)) || a.location.Flat?
  {
    match a.location
    case NoLocation => Said("Unknown location")
    case Text(t) => if |t| > 0 then Said(t) else Said("Unknown location")
    case Structured(address, _) => if TruthyStr(address) then Said(address.value) else RawObject
    case Flat(_) => RawObject
  }

  /** `alert.createdAt || alert.timestamp`. */
  function ShownTime(a: Alert): (t: Option<int>)
    ensures a.createdAt.Some? ==> t == a.createdAt
    ensures a.createdAt.None? ==> t == a.timestamp
  {
    if a.createdAt.Some? then a.createdAt else a.timestamp
  }

  /** `alert.reporter?.name || alert.reporter || 'Unknown'`. */
  function ReporterLabel(a: Alert): (l: Label)
    ensures a.reporter.ReporterRecord? && TruthyStr(a.reporter.name) ==> l == Said(a.reporter.name.value)
    ensures a.reporter.ReporterId? && |a.reporter.id| > 0 ==> l == Said(a.reporter.id)
    ensures a.reporter.NoReporter? || a.reporter == ReporterId("") ==> l == Said("Unknown")
    ensures l == RawObject <==> a.reporter.ReporterRecord? && !TruthyStr(a.reporter.name)
  {
    match a.reporter
    case NoReporter => Said("Unknown")
    case ReporterId(id) => if |id| > 0 then Said(id) else Said("Unknown")
    case ReporterRecord(_, name) => if TruthyStr(name) then Said(name.value) else RawObject
  }

  predicate HasGeoJson(a: Alert) {
    a.location.Structured? && a.location.coordinates.Some? && a.location.coordinates.value.GeoJson?
  }

  /** The card's coordinates: GeoJSON `[lng, lat]` first, then `alert.coordinates` —
      the reverse of the map's order. */
  function CardCoords(a: Alert): (c: Option<Coords>)
    ensures HasGeoJson(a) ==> c == Some(FromLngLat(a.location.coordinates.value.points))
    ensures !HasGeoJson(a) ==> c == a.coordinates
  {
    if HasGeoJson(a) then Some(FromLngLat(a.location.coordinates.value.points)) else a.coordinates
  }

  /** With only one of the two sources present, card and map read the same coordinates. */
  lemma CardAgreesWithMapOnSingleSource(a: Alert)
    requires HasGeoJson(a) != a.coordinates.Some?
    ensures CardCoords(a) == LiveMap.MarkerCoords(a)
  {
  }

  /** With both present they disagree: the card shows the GeoJSON point, the map the other. */
  lemma CardAndMapDisagreeOnBoth()
    ensures var a := Alert(None, None, None, None, None, None,
                           Structured(None, Some(GeoJson([123.18, 13.62]))),
                           Some(Coords(Some(14.0), Some(121.0))),
                           NoReporter, None, None, None, None);
            CardCoords(a) == Some(Coords(Some(13.62), Some(123.18)))
            && LiveMap.MarkerCoords(a) == Some(Coords(Some(14.0), Some(121.0)))
  {
  }
}

=== FILE: alertspage.dfy ===
/** The "My Alerts" page: the fetched list newest first, narrowed by a status filter and
    a free-text search, with per-status counts and the card badges. */
module AlertsPage {
  import opened Wrappers
  import opened Seqs
  import opened JsValues
  import opened Domain
  import NewestFirst

  /** The fetched list, sorted newest first. */
  function Fetched(data: seq<Alert>): (r: seq<Alert>)
    requires NewestFirst.AllDated(data)
    ensures NewestFirst.AllDated(r) && NewestFirst.Newest(r)
    ensures multiset(r) == multiset(data)
  {
    NewestFirst.Sort(data)
  }

  /** `filterStatus === 'all' || alert.status === filterStatus`. */
  predicate StatusMatches(a: Alert, filterStatus: string) {
    filterStatus == "all" || a.status == Some(filterStatus)
  }

  /** `field?.toLowerCase().includes(query.toLowerCase())` on a string property. */
  predicate FieldMatches(field: Option<string>, query: string) {
    field.Some? && Includes(ToLower(field.value), ToLower(query))
  }

  /** The search test as written: `None` where evaluating it throws. An object
      location has no `toLowerCase`, so reaching it is a `TypeError`. */
  function SearchAsWritten(a: Alert, query: string): (r: Option<bool>)
    ensures FieldMatches(a.kind, query) || FieldMatches(a.description, query) ==> r == Some(true)
    ensures r.None? <==> (!FieldMatches(a.kind, query) && !FieldMatches(a.description, query)
                          && (a.location.Structured? || a.location.Flat?))
  {
    if FieldMatches(a.kind, query) || FieldMatches(a.description, query) then Some(true)
    else
      match a.location
      case NoLocation => Some(false)
      case Text(text) => Some(Includes(ToLower(text), ToLower(query)))
      case _ => None
  }

  /** The search test with the location consulted only when it is a string. */
  predicate SearchMatches(a: Alert, query: string) {
    FieldMatches(a.kind, query) || FieldMatches(a.description, query)
    || (a.location.Text? && Includes(ToLower(a.location.text), ToLower(query)))
  }

  /** Wherever the written test returns, it agrees with the corrected one. */
  lemma SearchAgreesWhereDefined(a: Alert, query: string)
    ensures SearchAsWritten(a, query).Some? ==> SearchAsWritten(a, query).value == SearchMatches(a, query)
  {
  }

  /** A fire alert with a structured location, searched for "flooding": the written test
      throws, the corrected one answers no. */
  lemma SearchThrowsOnStructuredLocation()
    ensures var a := Alert(Some("a1"), None, Some("fire"), Some("pending"), None, Some("smoke"),
                           Structured(Some("Naga City"), None), None, NoReporter, None, None, None, None);
            SearchAsWritten(a, "flooding").None? && !SearchMatches(a, "flooding")
  {
  }

  /** The card filter, as a predicate value. */
  function Shown(filterStatus: string, query: string): Alert -> bool {
    (a: Alert) => StatusMatches(a, filterStatus) && SearchMatches(a, query)
  }

  /** `filteredAlerts`: the alerts passing both tests, in list order. */
  function Filtered(alerts: seq<Alert>, filterStatus: string, query: string): (r: seq<Alert>)
    ensures forall a :: a in r <==> a in alerts && StatusMatches(a, filterStatus) && SearchMatches(a, query)
    ensures forall a :: multiset(r)[a] ==
              if StatusMatches(a, filterStatus) && SearchMatches(a, query) then multiset(alerts)[a] else 0
    ensures Subseq(r, alerts)
  {
    Filter(alerts, Shown(filterStatus, query))
  }

  /** The written page renders nothing at all once a single alert makes the search throw:
      every alert's test is evaluated, whatever its status. */
  function FilteredAsWritten(alerts: seq<Alert>, filterStatus: string, query: string): (r: Option<seq<Alert>>)
    ensures r.None? <==> exists i :: 0 <= i < |alerts| && SearchAsWritten(alerts[i], query).None?
    ensures r.Some? ==> r.value == Filtered(alerts, filterStatus, query)
  {
    if exists i :: 0 <= i < |alerts| && SearchAsWritten(alerts[i], query).None? then None
    else Some(Filtered(alerts, filterStatus, query))
  }

  /** An empty query with the "all" filter shows every alert carrying a type. */
  lemma EmptySearchShowsTyped(alerts: seq<Alert>)
    requires forall i :: 0 <= i < |alerts| ==> alerts[i].kind.Some?
    ensures Filtered(alerts, "all", "") == alerts
  {
    forall i | 0 <= i < |alerts|
      ensures Shown("all", "")(alerts[i])
    {
      assert OccursAt(ToLower(alerts[i].kind.value), "", 0);
    }
    FilterAll(alerts, Shown("all", ""));
  }

  // ---------------------------------------------------------------- counts

  datatype StatusCounts = StatusCounts(all: nat, pending: nat, active: nat, responded: nat, resolved: nat)

  function StatusIs(s: string): Alert -> bool {
    (a: Alert) => HasStatus(a, s)
  }

  function Counts(alerts: seq<Alert>): (c: StatusCounts)
    ensures c.all == |alerts|
    ensures c.pending == |Filter(alerts, StatusIs("pending"))|
    ensures c.active == |Filter(alerts, StatusIs("active"))|
    ensures c.responded == |Filter(alerts, StatusIs("responded"))|
    ensures c.resolved == |Filter(alerts, StatusIs("resolved"))|
  {
    FilterLength(alerts, StatusIs("pending"));
    FilterLength(alerts, StatusIs("active"));
    FilterLength(alerts, StatusIs("responded"));
    FilterLength(alerts, StatusIs("resolved"));
    StatusCounts(|alerts|, Count(alerts, StatusIs("pending")), Count(alerts, StatusIs("active")),
                 Count(alerts, StatusIs("responded")), Count(alerts, StatusIs("resolved")))
  }

  /** The four statuses with a tile. */
  predicate Bucketed(a: Alert) {
    HasStatus(a, "pending") || HasStatus(a, "active") || HasStatus(a, "responded") || HasStatus(a, "resolved")
  }

  lemma {:induction false} BucketSum(s: seq<Alert>)
    ensures Count(s, StatusIs("pending")) + Count(s, StatusIs("active")) + Count(s, StatusIs("responded"))
            + Count(s, StatusIs("resolved")) == Count(s, Bucketed)
  {
    if |s| > 0 {
      BucketSum(s[1..]);
    }
  }

  /** The four tiles never add up to more than "all", and add up to exactly "all" iff no
      alert has another status (cancelled, say). */
  lemma CountsPartition(alerts: seq<Alert>)
    ensures var c := Counts(alerts);
            c.pending + c.active + c.responded + c.resolved <= c.all
    ensures var c := Counts(alerts);
            c.pending + c.active + c.responded + c.resolved == c.all
            <==> forall i :: 0 <= i < |alerts| ==> Bucketed(alerts[i])
  {
    BucketSum(alerts);
    CountComplement(alerts, Bucketed, (a: Alert) => !Bucketed(a));
  }

  // ---------------------------------------------------------------- badges and styling

  /** The "Active" badge: somebody has taken the alert and it is not closed. */
  predicate ShowActiveBadge(a: Alert) {
    a.responder.Some? && (HasStatus(a, "active") || HasStatus(a, "responded"))
  }

  /** A card shows "Cancel" or the "Active" badge, never both; an active alert always
      shows one of them. */
  lemma CancelAndBadgeExclusive(a: Alert)
    ensures !(CanCancel(a) && ShowActiveBadge(a))
    ensures HasStatus(a, "active") ==> CanCancel(a) || ShowActiveBadge(a)
  {
  }

  datatype StatusIcon = ClockIcon | ActivityIcon | ShieldIcon | CheckCircleIcon | AlertCircleIcon

  /** The four known statuses and what the page draws for each. */
  predicate KnownStatus(s: Option<string>) {
    s in {Some("pending"), Some("responded"), Some("active"), Some("resolved")}
  }

  function StatusColor(status: Option<string>): (c: string)
    ensures !KnownStatus(status) ==> c == "bg-gray-500"
  {
    match status
    case Some("pending") => "bg-yellow-500"
    case Some("responded") => "bg-blue-500"
    case Some("active") => "bg-orange-500"
    case Some("resolved") => "bg-green-500"
    case _ => "bg-gray-500"
  }

  function IconFor(status: Option<string>): (i: StatusIcon)
    ensures !KnownStatus(status) ==> i == AlertCircleIcon
  {
    match status
    case Some("pending") => ClockIcon
    case Some("responded") => ActivityIcon
    case Some("active") => ShieldIcon
    case Some("resolved") => CheckCircleIcon
    case _ => AlertCircleIcon
  }

  /** The colour and the icon fall back together, and only for unknown statuses; known
      statuses get pairwise distinct colours. */
  lemma StylingFallsBackTogether(status: Option<string>, other: Option<string>)
    ensures StatusColor(status) == "bg-gray-500" <==> !KnownStatus(status)
    ensures IconFor(status) == AlertCircleIcon <==> !KnownStatus(status)
    ensures KnownStatus(status) && KnownStatus(other) && status != other ==> StatusColor(status) != StatusColor(other)
  {
  }
}

=== FILE: citizen.dfy ===
/** The citizen dashboard: the reporter's own alerts, kept current by the three push
    events about them, and the "send an alert" flow. */
module Citizen {
  import opened Wrappers
  import opened Seqs
  import opened JsValues
  import opened Domain
  import opened Store
  import NewestFirst
  import LiveMap

  datatype CitizenState = CitizenState(alerts: seq<Alert>, notices: seq<NotificationInput>)

  // ---------------------------------------------------------------- fetch

  /** `alert.reporter?._id === uid || alert.reporter === uid`. A raw-id reporter has no
      `_id`, so it also matches a missing user id. */
  predicate ReportedBy(a: Alert, uid: Option<string>) {
    match a.reporter
    case NoReporter => uid.None?
    case ReporterId(id) => uid.None? || uid == Some(id)
    case ReporterRecord(dbId, _) => dbId == uid
  }

  function ReporterIs(uid: Option<string>): Alert -> bool {
    (a: Alert) => ReportedBy(a, uid)
  }

  /** `fetchData`: the signed-in user's alerts, newest first. */
  function MyAlerts(data: seq<Alert>, uid: Option<string>): (r: seq<Alert>)
    requires NewestFirst.AllDated(Filter(data, ReporterIs(uid)))
    ensures NewestFirst.AllDated(r) && NewestFirst.Newest(r)
    ensures multiset(r) == multiset(Filter(data, ReporterIs(uid)))
    ensures forall a :: a in r <==> a in data && ReportedBy(a, uid)
  {
    var mine := Filter(data, ReporterIs(uid));
    var r := NewestFirst.Sort(mine);
    assert forall a :: a in r <==> a in multiset(r);
    r
  }

  /** For a signed-in user the match is exact: an alert is kept iff its embedded
      reporter `_id` or its raw reporter id is the user's id. */
  lemma MyAlertsExact(data: seq<Alert>, uid: string, a: Alert)
    requires NewestFirst.AllDated(Filter(data, ReporterIs(Some(uid))))
    ensures a in MyAlerts(data, Some(uid)) <==>
              a in data && (a.reporter == ReporterId(uid) || (a.reporter.ReporterRecord? && a.reporter.dbId == Some(uid)))
  {
  }

  function OnFetched(st: CitizenState, uid: Option<string>, response: ApiResult<seq<Alert>>): (r: CitizenState)
    requires response.ApiOk? ==> NewestFirst.AllDated(Filter(response.value, ReporterIs(uid)))
    ensures response.ApiOk? ==> r == st.(alerts := MyAlerts(response.value, uid))
    ensures response.ApiError? ==>
              r == st.(notices := st.notices + [Notice("error", "Error", "Failed to load dashboard data: " + response.message)])
  {
    match response
    case ApiOk(data) => st.(alerts := MyAlerts(data, uid))
    case ApiError(message) =>
      st.(notices := st.notices + [Notice("error", "Error", "Failed to load dashboard data: " + message)])
  }

  // ---------------------------------------------------------------- push events

  /** `{ ...alert, ...incoming }`: every property present on the incoming alert wins. */
  function Merge(prior: Alert, incoming: Alert): Alert {
    Alert(
      if incoming.dbId.Some? then incoming.dbId else prior.dbId,
      if incoming.id.Some? then incoming.id else prior.id,
      if incoming.kind.Some? then incoming.kind else prior.kind,
      if incoming.status.Some? then incoming.status else prior.status,
      if incoming.title.Some? then incoming.title else prior.title,
      if incoming.description.Some? then incoming.description else prior.description,
      if !incoming.location.NoLocation? then incoming.location else prior.location,
      if incoming.coordinates.Some? then incoming.coordinates else prior.coordinates,
      if !incoming.reporter.NoReporter? then incoming.reporter else prior.reporter,
      if incoming.responder.Some? then incoming.responder else prior.responder,
      if incoming.createdAt.Some? then incoming.createdAt else prior.createdAt,
      if incoming.timestamp.Some? then incoming.timestamp else prior.timestamp,
      if incoming.arrivedAt.Some? then incoming.arrivedAt else prior.arrivedAt)
  }

  /** An alert with no properties at all. */
  const EmptyAlert := Alert(None, None, None, None, None, None, NoLocation, None, NoReporter, None, None, None, None)

  /** Merging is a monoid with the empty alert as unit, and merging the same patch
      twice is merging it once. */
  lemma MergeLaws(a: Alert, b: Alert, c: Alert)
    ensures Merge(a, EmptyAlert) == a && Merge(EmptyAlert, b) == b
    ensures Merge(Merge(a, b), c) == Merge(a, Merge(b, c))
    ensures Merge(Merge(a, b), b) == Merge(a, b)
  {
  }

  /** Fields the incoming alert carries win; fields it lacks keep their prior values. */
  lemma MergeKeepsAbsentFields(prior: Alert, incoming: Alert)
    requires incoming.responder.None? && incoming.location.NoLocation?
    ensures Merge(prior, incoming).responder == prior.responder
    ensures Merge(prior, incoming).location == prior.location
    ensures incoming.status.Some? ==> Merge(prior, incoming).status == incoming.status
  {
  }

  datatype CitizenEvent =
    | AlertResponded(alert: Alert, message: Option<string>)
    | AlertUpdated(update: Option<Alert>, message: Option<string>)
    | AlertCancelled(alert: Alert, message: Option<string>)

  /** `alert._id === target._id`, as a predicate value. */
  function SameDbId(dbId: Option<string>): Alert -> bool {
    (a: Alert) => a.dbId == dbId
  }

  /** `x?.responder?.name`. */
  function ResponderName(a: Option<Alert>): Option<string> {
    if a.Some? && a.value.responder.Some? then a.value.responder.value.name else None
  }

  /** The notice `alertUpdated` raises: arrival and resolution get their own wording. */
  function UpdatedNotice(update: Option<Alert>, message: Option<string>): (n: NotificationInput)
    ensures n.kind == Some("info")
    ensures update.Some? && HasStatus(update.value, "active") && update.value.arrivedAt.Some? ==>
              n.title == Some("Responder Arrived!")
    ensures update.Some? && HasStatus(update.value, "resolved") ==> n.title == Some("Incident Resolved")
    ensures !(update.Some? && (HasStatus(update.value, "resolved") ||
                               (HasStatus(update.value, "active") && update.value.arrivedAt.Some?))) ==>
              n == Notice("info", "Alert Update", OrText(message, "Your alert has been updated"))
  {
    if update.Some? && HasStatus(update.value, "active") && update.value.arrivedAt.Some? then
      Notice("info", "Responder Arrived!", OrText(ResponderName(update), "The responder") + " has arrived at your location")
    else if update.Some? && HasStatus(update.value, "resolved") then
      Notice("info", "Incident Resolved", "Your alert has been successfully resolved. Thank you for using AlertoDePin.")
    else
      Notice("info", "Alert Update", OrText(message, "Your alert has been updated"))
  }

  /** One push event: a notice is raised and the alerts sharing the event alert's `_id`
      are rewritten; every other alert is left as it was. */
  function Receive(st: CitizenState, e: CitizenEvent): (r: CitizenState)
    ensures |r.alerts| == |st.alerts| && |r.notices| == |st.notices| + 1
    ensures e.AlertResponded? ==>
              forall i :: 0 <= i < |st.alerts| ==>
                r.alerts[i] == if st.alerts[i].dbId == e.alert.dbId
                               then st.alerts[i].(status := Some("responded"), responder := e.alert.responder)
                               else st.alerts[i]
    ensures e.AlertCancelled? ==>
              forall i :: 0 <= i < |st.alerts| ==>
                r.alerts[i] == if st.alerts[i].dbId == e.alert.dbId
                               then st.alerts[i].(status := Some("cancelled"))
                               else st.alerts[i]
    ensures e.AlertUpdated? && e.update.Some? ==>
              forall i :: 0 <= i < |st.alerts| ==>
                r.alerts[i] == if st.alerts[i].dbId == e.update.value.dbId
                               then Merge(st.alerts[i], e.update.value)
                               else st.alerts[i]
    ensures e.AlertUpdated? && e.update.None? ==> r.alerts == st.alerts
    ensures e.AlertResponded? ==>
              r.notices == st.notices + [Notice("success", "Responder On The Way!",
                                                OrText(e.message, OrText(ResponderName(Some(e.alert)), "A responder")
                                                                  + " is en route to your location"))]
    ensures e.AlertUpdated? ==> r.notices == st.notices + [UpdatedNotice(e.update, e.message)]
    ensures e.AlertCancelled? ==>
              r.notices == st.notices + [Notice("info", "Alert Update", OrText(e.message, "Alert status updated"))]
  {
    match e
    case AlertResponded(a, message) =>
      var text := OrText(message, OrText(ResponderName(Some(a)), "A responder") + " is en route to your location");
      CitizenState(MapIf(st.alerts, SameDbId(a.dbId), (x: Alert) => x.(status := Some("responded"), responder := a.responder)),
                   st.notices + [Notice("success", "Responder On The Way!", text)])
    case AlertUpdated(update, message) =>
      var alerts := match update
        case None => st.alerts
        case Some(u) => MapIf(st.alerts, SameDbId(u.dbId), (x: Alert) => Merge(x, u));
      CitizenState(alerts, st.notices + [UpdatedNotice(update, message)])
    case AlertCancelled(a, message) =>
      CitizenState(MapIf(st.alerts, SameDbId(a.dbId), (x: Alert) => x.(status := Some("cancelled"))),
                   st.notices + [Notice("info", "Alert Update", OrText(message, "Alert status updated"))])
  }

  /** Receiving the same update twice leaves the list as receiving it once. */
  lemma UpdateIdempotent(st: CitizenState, u: Alert, m1: Option<string>, m2: Option<string>)
    ensures var once := Receive(st, AlertUpdated(Some(u), m1));
            Receive(once, AlertUpdated(Some(u), m2)).alerts == once.alerts
  {
    var once := Receive(st, AlertUpdated(Some(u), m1));
    var twice := Receive(once, AlertUpdated(Some(u), m2));
    forall i | 0 <= i < |st.alerts|
      ensures twice.alerts[i] == once.alerts[i]
    {
      var a := st.alerts[i];
      if a.dbId == u.dbId {
        MergeLaws(a, u, u);
        assert once.alerts[i] == Merge(a, u);
        assert Merge(a, u).dbId == u.dbId;
      } else {
        assert once.alerts[i] == a;
      }
    }
  }

  /** A responded alert, once the list has it, shows "Help is on the way" and no
      longer offers "Cancel". */
  lemma RespondedHidesCancel(st: CitizenState, a: Alert, m: Option<string>, i: nat)
    requires i < |st.alerts| && st.alerts[i].dbId == a.dbId && a.responder.Some?
    ensures var r := Receive(st, AlertResponded(a, m));
            ShowHelpOnTheWay(r.alerts[i]) && !CanCancel(r.alerts[i])
  {
  }

  // ---------------------------------------------------------------- card gating

  /** The "Help is on the way" badge. */
  predicate ShowHelpOnTheWay(a: Alert) {
    a.responder.Some? && HasStatus(a, "responded")
  }

  /** A card never shows "Cancel" and "Help is on the way" together. */
  lemma CancelAndBadgeExclusive(a: Alert)
    ensures !(CanCancel(a) && ShowHelpOnTheWay(a))
  {
  }

  // ---------------------------------------------------------------- sending an alert

  datatype AlertForm = AlertForm(title: string, description: string, notes: string)

  /** The emergency button pressed: its alert `type` and display name (`label`). */
  datatype AlertChoice = AlertChoice(kind: string, name: string)

  /** What the device reports when asked for a position. */
  datatype Position = Located(lat: real, lng: real) | LocationDenied | NoGeolocation

  /** The reverse-geocoding lookup: its `display_name`, or a failed request. */
  datatype Geocode = Geocoded(displayName: Option<string>) | GeocodeFailed

  /** The body of the create-alert request. */
  datatype CreateRequest = CreateRequest(title: string, description: string, kind: string,
                                         priority: string, location: Location, notes: string)

  /** The address stored with a new alert. `fixedText` is the `toFixed(6)` rendering of
      the position, used only when the lookup failed and the profile has no address. */
  function ReportAddress(geo: Geocode, userAddress: Option<string>, fixedText: string): (s: string)
    ensures geo.Geocoded? && TruthyStr(geo.displayName) ==> s == geo.displayName.value
    ensures geo.Geocoded? && !TruthyStr(geo.displayName) ==> s == "Location from GPS"
    ensures geo.GeocodeFailed? ==> s == OrText(userAddress, fixedText)
  {
    match geo
    case Geocoded(name) => OrText(name, "Location from GPS")
    case GeocodeFailed => OrText(userAddress, fixedText)
  }

  /** The request body: a GeoJSON point in `[longitude, latitude]` order, high priority. */
  function CreatePayload(form: AlertForm, choice: AlertChoice, lat: real, lng: real, address: string): (p: CreateRequest)
    ensures p.kind == choice.kind && p.priority == "high"
    ensures p.title == form.title && p.description == form.description && p.notes == form.notes
    ensures p.location.Structured? && p.location.address == Some(address)
  {
    CreateRequest(form.title, form.description, choice.kind, "high",
                  Structured(Some(address), Some(GeoJson([lng, lat]))), form.notes)
  }

  /** The alert the backend echoes back for a request, carrying the request's fields. */
  function Echo(p: CreateRequest): Alert {
    EmptyAlert.(kind := Some(p.kind), title := Some(p.title), description := Some(p.description),
                location := p.location)
  }

  /** The payload's coordinate order is the one the live map reads: the created alert is
      plotted at the reported position. */
  lemma CreatedAlertPlottedWhereReported(form: AlertForm, choice: AlertChoice, lat: real, lng: real, address: string)
    requires lat != 0.0 && lng != 0.0
    ensures LiveMap.MarkerPoint(Echo(CreatePayload(form, choice, lat, lng, address))) == Some(Point(lat, lng))
  {
  }

  /** The result of pressing "Send": the `[longitude, latitude]` position sent to the
      location endpoint (if any), the create request sent (if any), the notice, and the form. */
  datatype SendOutcome = SendOutcome(locationSent: Option<seq<real>>, request: Option<CreateRequest>,
                                     notice: NotificationInput, form: AlertForm)

  const EmptyAlertForm := AlertForm("", "", "")

  /** The notice a failed send raises, quoting the thrown error's message. */
  function SendFailed(message: string): NotificationInput {
    Notice("error", "Failed to Send Alert", OrText(Some(message), "Please try again."))
  }

  /** `confirmSendAlert`. A blank description stops before the position is requested.
      With a position, the location update is awaited first (`locationUpdate`) and the
      alert is created (`create`) only after it succeeds; either failure lands in the
      same handler. */
  function ConfirmSendAlert(form: AlertForm, choice: AlertChoice, position: Position, geo: Geocode,
                            userAddress: Option<string>, fixedText: string,
                            locationUpdate: ApiResult<()>, create: ApiResult<()>): (r: SendOutcome)
    ensures AllSpace(form.description) ==>
              r == SendOutcome(None, None, Notice("error", "Missing Information", "Please provide a description of the emergency."), form)
    ensures r.locationSent.Some? <==> !AllSpace(form.description) && position.Located?
    ensures r.locationSent.Some? ==> r.locationSent.value == [position.lng, position.lat]
    ensures r.request.Some? <==> !AllSpace(form.description) && position.Located? && locationUpdate.ApiOk?
    ensures r.request.Some? ==>
              r.request.value == CreatePayload(form, choice, position.lat, position.lng,
                                               ReportAddress(geo, userAddress, fixedText))
    ensures r.request.Some? && create.ApiOk? ==>
              r.form == EmptyAlertForm
              && r.notice == Notice("success", choice.name + " Sent!",
                                    "Your emergency alert has been sent to " + choice.kind + " responders.")
    ensures !(r.request.Some? && create.ApiOk?) ==> r.form == form && r.notice.kind == Some("error")
    ensures r.locationSent.Some? && locationUpdate.ApiError? ==> r.notice == SendFailed(locationUpdate.message)
    ensures r.request.Some? && create.ApiError? ==> r.notice == SendFailed(create.message)
    ensures !AllSpace(form.description) && position.NoGeolocation? ==>
              r.notice == Notice("error", "Location Not Supported", "Your browser does not support geolocation.")
    ensures !AllSpace(form.description) && position.LocationDenied? ==>
              r.notice == Notice("error", "Location Error", "Unable to get your location. Please enable location services.")
  {
    TrimEmptyIffAllSpace(form.description);
    if |Trim(form.description)| == 0 then
      SendOutcome(None, None, Notice("error", "Missing Information", "Please provide a description of the emergency."), form)
    else
      match position
      case NoGeolocation =>
        SendOutcome(None, None, Notice("error", "Location Not Supported", "Your browser does not support geolocation."), form)
      case LocationDenied =>
        SendOutcome(None, None, Notice("error", "Location Error", "Unable to get your location. Please enable location services."), form)
      case Located(lat, lng) =>
        var request := CreatePayload(form, choice, lat, lng, ReportAddress(geo, userAddress, fixedText));
        match locationUpdate
        case ApiError(message) =>
          SendOutcome(Some([lng, lat]), None, SendFailed(message), form)
        case ApiOk(_) =>
          match create
          case ApiOk(_) =>
            SendOutcome(Some([lng, lat]), Some(request),
                        Notice("success", choice.name + " Sent!",
                               "Your emergency alert has been sent to " + choice.kind + " responders."),
                        EmptyAlertForm)
          case ApiError(message) =>
            SendOutcome(Some([lng, lat]), Some(request), SendFailed(message), form)
  }

  /** A rejected location update stops the send: the alert is never created, the form
      is kept, and the failure is reported, whatever the create call would have done. */
  lemma FailedLocationUpdateBlocksCreate(form: AlertForm, choice: AlertChoice, lat: real, lng: real, geo: Geocode,
                                         userAddress: Option<string>, fixedText: string, message: string,
                                         create: ApiResult<()>)
    requires !AllSpace(form.description)
    ensures var r := ConfirmSendAlert(form, choice, Located(lat, lng), geo, userAddress, fixedText,
                                      ApiError(message), create);
            r.locationSent == Some([lng, lat]) && r.request.None? && r.form == form
            && r.notice.title == Some("Failed to Send Alert")
  {
  }

  /** A description of spaces, tabs or line breaks is as good as none. */
  lemma WhitespaceDescriptionRejected(choice: AlertChoice, position: Position, geo: Geocode,
                                      userAddress: Option<string>, fixedText: string,
                                      locationUpdate: ApiResult<()>, create: ApiResult<()>)
    ensures var r := ConfirmSendAlert(AlertForm("Help", " \t\n", ""), choice, position, geo, userAddress, fixedText,
                                      locationUpdate, create);
            r.locationSent.None? && r.request.None?
  {
    assert AllSpace(" \t\n");
  }
}

=== FILE: domain.dfy ===
/** The records the dashboards exchange with the backend and the push channel.
    Every property a JSON payload may omit is an `Option`; `None` is `undefined`. */
module Domain {
  import opened Wrappers
  import opened JsValues

  /** A `{lat, lng}` object; either member may be missing. */
  datatype Coords = Coords(lat: Option<real>, lng: Option<real>)

  /** A map position whose latitude and longitude both passed a truthiness check. */
  datatype Point = Point(lat: real, lng: real)

  /** The shapes found under `location.coordinates`. */
  datatype CoordShape =
    | GeoJson(points: seq<real>)      // { type: 'Point', coordinates: [lng, lat] }
    | CoordArray(points: seq<real>)   // a bare [lng, lat] array
    | LatLngObject(c: Coords)         // a { lat, lng } object

  /** The value of an alert's `location` property. */
  datatype Location =
    | NoLocation                                                      // absent
    | Text(text: string)                                              // a free-text address
    | Structured(address: Option<string>, coordinates: Option<CoordShape>)
    | Flat(c: Coords)                                                 // the location is itself { lat, lng }

  /** A signed-in user, also stored as an alert's `responder`. `dbId` is the `_id` property. */
  datatype User = User(
    dbId: Option<string>,
    name: Option<string>,
    email: Option<string>,
    contactNumber: Option<string>,
    address: Option<string>,
    userType: Option<string>,
    status: Option<string>)

  /** An alert's `reporter`: missing, a raw user id, or an embedded `{ _id, name }` record. */
  datatype Reporter =
    | NoReporter
    | ReporterId(id: string)
    | ReporterRecord(dbId: Option<string>, name: Option<string>)

  /** An alert as received from the REST API or a push event. `kind` is the `type`
      property; timestamps are milliseconds parsed from ISO strings, so a present
      timestamp is a non-empty string and hence truthy. */
  datatype Alert = Alert(
    dbId: Option<string>,
    id: Option<string>,
    kind: Option<string>,
    status: Option<string>,
    title: Option<string>,
    description: Option<string>,
    location: Location,
    coordinates: Option<Coords>,
    reporter: Reporter,
    responder: Option<User>,
    createdAt: Option<int>,
    timestamp: Option<int>,
    arrivedAt: Option<int>)

  /** A presence record from the push channel's roster. */
  datatype OnlineUser = OnlineUser(
    userId: Option<string>,
    name: Option<string>,
    userType: Option<string>,
    location: Option<Coords>)

  /** `a._id || a.id`: the identifier the responder dashboards match alerts by. */
  function Key(a: Alert): (k: Option<string>)
    ensures TruthyStr(a.dbId) ==> k == a.dbId
    ensures !TruthyStr(a.dbId) ==> k == a.id
  {
    OrStr(a.dbId, a.id)
  }

  /** `a.status === s`. */
  predicate HasStatus(a: Alert, s: string) {
    a.status == Some(s)
  }

  /** `a.type === t`. */
  predicate HasKind(a: Alert, t: string) {
    a.kind == Some(t)
  }

  /** `a.responder?._id`: undefined when there is no responder. */
  function ResponderId(a: Alert): (r: Option<string>)
    ensures a.responder.None? ==> r.None?
    ensures a.responder.Some? ==> r == a.responder.value.dbId
  {
    match a.responder
    case None => None
    case Some(u) => u.dbId
  }

  /** `user?._id` for a possibly signed-out user. */
  function UserId(u: Option<User>): (r: Option<string>)
    ensures u.None? ==> r.None?
    ensures u.Some? ==> r == u.value.dbId
  {
    match u
    case None => None
    case Some(v) => v.dbId
  }

  /** `(a._id || a.id) === id`, as a predicate value for list operations. */
  function KeyIs(id: Option<string>): Alert -> bool {
    (a: Alert) => Key(a) == id
  }

  /** `(a._id || a.id) !== id`. */
  function KeyIsNot(id: Option<string>): Alert -> bool {
    (a: Alert) => Key(a) != id
  }

  /** `a.status === 'active' || a.status === 'pending'`: an alert nobody has closed or taken. */
  predicate IsOpen(a: Alert) {
    HasStatus(a, "active") || HasStatus(a, "pending")
  }

  /** An alert card offers "Cancel" only for an open alert nobody has taken. */
  predicate CanCancel(a: Alert) {
    IsOpen(a) && a.responder.None?
  }

  /** `a.status !== 'resolved' && a.status !== 'cancelled'`. */
  predicate NotClosed(a: Alert) {
    !HasStatus(a, "resolved") && !HasStatus(a, "cancelled")
  }

  /** The outcome of a call into the REST client: its parsed result, or the thrown error's
      `message`. */
  datatype ApiResult<T> = ApiOk(value: T) | ApiError(message: string)
}

=== FILE: eta.dfy ===
/** The travel-time label shared by both map components: whole minutes are shown as
    `N min` below an hour and as `Hh Mm` from an hour up. */
module Eta {
  import opened Wrappers
  import opened Seqs
  import opened JsValues

  /** `calculateETA` after its rounding step: `minutes` is `Math.round(hours * 60)`. */
  function FormatEta(minutes: nat): (r: string)
    ensures minutes < 60 ==> r == DecimalString(minutes) + " min"
    ensures minutes >= 60 ==> r == DecimalString(minutes / 60) + "h " + DecimalString(minutes % 60) + "m"
    ensures ParseEta(r) == Some(minutes)
  {
    if minutes < 60 then
      MinuteFormRoundTrip(minutes);
      DecimalString(minutes) + " min"
    else
      HourFormRoundTrip(minutes / 60, minutes % 60);
      DecimalString(minutes / 60) + "h " + DecimalString(minutes % 60) + "m"
  }

  /** Reads a label back: `N min`, or `Hh Mm` with a minute part below 60. */
  function ParseEta(s: string): Option<nat> {
    if EndsWithMin(s) then ParseDecimal(s[..|s| - 4])
    else if |s| >= 1 && s[|s| - 1] == 'm' then ParseHours(s[..|s| - 1])
    else None
  }

  predicate EndsWithMin(s: string) {
    |s| >= 4 && s[|s| - 4..] == " min"
  }

  /** The hour form without its final `m`: digits, the first `h`, a space, digits. */
  function ParseHours(t: string): Option<nat> {
    var k := FindIndex(t, IsHourMark);
    if k < 0 || k + 2 > |t| || t[k + 1] != ' ' then None
    else
      match (ParseDecimal(t[..k]), ParseDecimal(t[k + 2..]))
      case (Some(h), Some(m)) => if m < 60 then Some(60 * h + m) else None
      case _ => None
  }

  lemma MinuteFormRoundTrip(m: nat)
    ensures ParseEta(DecimalString(m) + " min") == Some(m)
  {
    var s := DecimalString(m) + " min";
    assert s[..|s| - 4] == DecimalString(m);
    DecimalRoundTrip(m);
  }

  predicate IsHourMark(c: char) {
    c == 'h'
  }

  /** The first `h` of a label is the one after the hour digits. */
  lemma FirstHourMark(s: string, n: nat)
    requires n < |s| && s[n] == 'h'
    requires forall i :: 0 <= i < n ==> s[i] != 'h'
    ensures FindIndex(s, IsHourMark) == n
  {
    assert IsHourMark(s[n]);
  }

  /** Any two digit runs around `h ` and before `m` read back as hours and minutes. */
  lemma ParseHourForm(hs: string, ms: string, h: nat, m: nat)
    requires m < 60
    requires forall i :: 0 <= i < |hs| ==> IsDigit(hs[i])
    requires ParseDecimal(hs) == Some(h) && ParseDecimal(ms) == Some(m)
    ensures ParseEta(hs + "h " + ms + "m") == Some(60 * h + m)
  {
    var t := hs + "h " + ms;
    var s := t + "m";
    assert s == hs + "h " + ms + "m";
    assert !EndsWithMin(s) by {
      assert s[|s| - 1] == 'm';
      if |s| >= 4 {
        assert s[|s| - 4..][3] == s[|s| - 1];
      }
    }
    assert s[..|s| - 1] == t;
    ParseHoursOf(hs, ms, h, m);
  }

  lemma ParseHoursOf(hs: string, ms: string, h: nat, m: nat)
    requires m < 60
    requires forall i :: 0 <= i < |hs| ==> IsDigit(hs[i])
    requires ParseDecimal(hs) == Some(h) && ParseDecimal(ms) == Some(m)
    ensures ParseHours(hs + "h " + ms) == Some(60 * h + m)
  {
    var t := hs + "h " + ms;
    var n := |hs|;
    assert t[n] == 'h';
    forall i | 0 <= i < n
      ensures t[i] != 'h'
    {
      assert t[i] == hs[i] && IsDigit(hs[i]);
    }
    FirstHourMark(t, n);
    assert t[n + 1] == ' ';
    assert t[..n] == hs;
    assert t[n + 2..] == ms;
  }

  lemma HourFormRoundTrip(h: nat, m: nat)
    requires m < 60
    ensures ParseEta(DecimalString(h) + "h " + DecimalString(m) + "m") == Some(60 * h + m)
  {
    DecimalRoundTrip(h);
    DecimalRoundTrip(m);
    ParseHourForm(DecimalString(h), DecimalString(m), h, m);
  }

  /** In the hour form the minute part never reaches 60, so no two durations share a label. */
  lemma FormatEtaInjective(a: nat, b: nat)
    requires FormatEta(a) == FormatEta(b)
    ensures a == b
  {
    assert ParseEta(FormatEta(a)) == Some(a);
  }

  /** The boundary: one hour is written in the hour form. */
  lemma OneHourBoundary()
    ensures FormatEta(59) == "59 min"
    ensures FormatEta(60) == "1h 0m"
  {
    assert DecimalString(59) == DecimalString(5) + [DigitChar(9)];
    assert DecimalString(59) == "59";
    assert DecimalString(1) == "1" && DecimalString(0) == "0";
  }
}

=== FILE: fire.dfy ===
/** The fire responder dashboard: its alert list, presence roster and notifications as a
    state that fetches, push events and the responder's actions transform. */
module Fire {
  import opened Wrappers
  import opened Seqs
  import opened JsValues
  import opened Domain
  import opened Store
  import Realtime

  /** The page state. `subscribed` is the push subscription's liveness flag; `notices`
      lists, oldest first, the notifications the page has raised. */
  datatype FireState = FireState(
    alerts: seq<Alert>,
    online: seq<OnlineUser>,
    selected: Option<Alert>,
    subscribed: bool,
    notices: seq<NotificationInput>)

  /** A fire incident that is neither resolved nor cancelled. */
  predicate IsFireIncident(a: Alert) {
    HasKind(a, "fire") && NotClosed(a)
  }

  /** Queues one notification input; nothing else changes. Mirrors `Hospital.Raise` over
      that dashboard's state. */
  function Raise(st: FireState, n: NotificationInput): FireState {
    st.(notices := st.notices + [n])
  }

  /** The periodic fetch: the list becomes the fetched fire incidents, or an error is raised. */
  function OnFetched(st: FireState, response: ApiResult<seq<Alert>>): (r: FireState)
    ensures response.ApiOk? ==> r == st.(alerts := Filter(response.value, IsFireIncident))
    ensures response.ApiError? ==> r == Raise(st, TextNotice("Failed to load alerts", "error"))
  {
    match response
    case ApiOk(data) => st.(alerts := Filter(data, IsFireIncident))
    case ApiError(_) => Raise(st, TextNotice("Failed to load alerts", "error"))
  }

  /** Every alert the fetch leaves in the list is an open fire incident. */
  lemma FetchedAreFireIncidents(st: FireState, data: seq<Alert>)
    ensures var r := OnFetched(st, ApiOk(data));
            forall a :: a in r.alerts <==> a in data && HasKind(a, "fire") && NotClosed(a)
  {
  }

  datatype FireEvent =
    | OnlineUsersUpdate(users: seq<OnlineUser>)
    | UserLocationUpdate(userId: Option<string>, location: Option<Coords>)
    | NewAlert(alert: Alert)
    | NewNotification(kind: Option<string>, title: Option<string>, message: Option<string>)
    | Teardown

  /** The notice a new fire incident raises. */
  function NewAlertNotice(a: Alert): NotificationInput {
    TextNotice("New fire alert: " + OrText(a.description, "Emergency"), "warning")
  }

  /** One push event, or the subscription's cleanup. After cleanup every handler
      returns before touching the state. */
  function Receive(st: FireState, e: FireEvent): (r: FireState)
    ensures !st.subscribed ==> r == st
    ensures st.subscribed && e.Teardown? ==> r == st.(subscribed := false)
    ensures st.subscribed && e.NewAlert? && IsFireIncident(e.alert) ==>
              r == st.(alerts := [e.alert] + st.alerts, notices := st.notices + [NewAlertNotice(e.alert)])
    ensures e.NewAlert? && !IsFireIncident(e.alert) ==> r == st
    ensures st.subscribed && e.UserLocationUpdate? ==>
              r == st.(online := Realtime.UpdateLocation(st.online, e.userId, e.location))
    ensures st.subscribed && e.OnlineUsersUpdate? ==> r == st.(online := e.users)
    ensures st.subscribed && e.NewNotification? ==>
              r == st.(notices := st.notices + [Realtime.PushNotice(e.kind, e.title, e.message)])
    ensures !(st.subscribed && e.NewAlert? && IsFireIncident(e.alert)) ==> r.alerts == st.alerts
    ensures r.subscribed ==> st.subscribed
  {
    if !st.subscribed then st
    else
      match e
      case OnlineUsersUpdate(users) => st.(online := users)
      case UserLocationUpdate(userId, location) =>
        st.(online := Realtime.UpdateLocation(st.online, userId, location))
      case NewAlert(a) =>
        if IsFireIncident(a) then Raise(st.(alerts := [a] + st.alerts), NewAlertNotice(a)) else st
      case NewNotification(kind, title, message) => Raise(st, Realtime.PushNotice(kind, title, message))
      case Teardown => st.(subscribed := false)
  }

  function ReceiveAll(st: FireState, events: seq<FireEvent>): FireState
    decreases |events|
  {
    if |events| == 0 then st else ReceiveAll(Receive(st, events[0]), events[1..])
  }

  /** Once the subscription is torn down, no later event changes anything. */
  lemma {:induction false} UnsubscribedIgnoresEvents(st: FireState, events: seq<FireEvent>)
    requires !st.subscribed
    ensures ReceiveAll(st, events) == st
    decreases |events|
  {
    if |events| > 0 {
      UnsubscribedIgnoresEvents(Receive(st, events[0]), events[1..]);
    }
  }

  /** Whatever arrives after a teardown, the state is the one the teardown left. */
  lemma TeardownIsFinal(st: FireState, events: seq<FireEvent>)
    requires st.subscribed
    ensures ReceiveAll(st, [Teardown] + events) == st.(subscribed := false)
  {
    assert ([Teardown] + events)[1..] == events;
    UnsubscribedIgnoresEvents(st.(subscribed := false), events);
  }

  /** Events only ever add incidents at the front; alerts already listed stay, in order. */
  lemma {:induction false} EventsOnlyPrepend(st: FireState, events: seq<FireEvent>)
    ensures IsSuffix(st.alerts, ReceiveAll(st, events).alerts)
    decreases |events|
  {
    if |events| > 0 {
      var next := Receive(st, events[0]);
      var r := ReceiveAll(next, events[1..]);
      assert ReceiveAll(st, events) == r;
      assert IsSuffix(st.alerts, next.alerts) by {
        ReceivePrepends(st, events[0]);
      }
      assert IsSuffix(next.alerts, r.alerts) by {
        EventsOnlyPrepend(next, events[1..]);
      }
      SuffixTransitive(st.alerts, next.alerts, r.alerts);
    }
  }

  lemma ReceivePrepends(st: FireState, e: FireEvent)
    ensures IsSuffix(st.alerts, Receive(st, e).alerts)
  {
    var next := Receive(st, e);
    if st.subscribed && e.NewAlert? && IsFireIncident(e.alert) {
      assert next.alerts[1..] == st.alerts;
    } else {
      assert next.alerts[0..] == st.alerts;
    }
  }

  // ---------------------------------------------------------------- stats

  datatype FireStats = FireStats(activeIncidents: nat, pendingResponse: nat, onlineUsers: nat)

  function Stats(st: FireState): (s: FireStats)
    ensures s.activeIncidents == |Filter(st.alerts, (a: Alert) => HasStatus(a, "active"))|
    ensures s.pendingResponse == |Filter(st.alerts, (a: Alert) => HasStatus(a, "pending"))|
    ensures s.onlineUsers == |st.online|
  {
    FilterLength(st.alerts, (a: Alert) => HasStatus(a, "active"));
    FilterLength(st.alerts, (a: Alert) => HasStatus(a, "pending"));
    FireStats(Count(st.alerts, (a: Alert) => HasStatus(a, "active")),
              Count(st.alerts, (a: Alert) => HasStatus(a, "pending")),
              |st.online|)
  }

  /** Active and pending incidents together never exceed the list. */
  lemma StatsBounded(st: FireState)
    ensures Stats(st).activeIncidents + Stats(st).pendingResponse <= |st.alerts|
  {
    CountDisjoint(st.alerts, (a: Alert) => HasStatus(a, "active"), (a: Alert) => HasStatus(a, "pending"));
  }

  // ---------------------------------------------------------------- actions

  /** The state after a handler, and whether it called the REST API. */
  datatype Handled = Handled(state: FireState, called: bool)

  /** The rewrite of a responded alert: taken by `user`. */
  function TakenBy(user: User): Alert -> Alert {
    (a: Alert) => a.(status := Some("responded"), responder := Some(user))
  }

  /** "Respond to Incident". An id that matches no listed alert raises an error without
      calling the API; otherwise a successful call marks every alert with that id as
      responded by `user` and selects the returned alert (or the listed one). */
  function HandleRespond(st: FireState, alertId: Option<string>, user: User, api: ApiResult<Option<Alert>>): (r: Handled)
    ensures FindIndex(st.alerts, KeyIs(alertId)) == -1 <==> !r.called
    ensures !r.called ==> r.state == Raise(st, TextNotice("Alert not found", "error"))
    ensures r.called && api.ApiError? ==>
              r.state == Raise(st, TextNotice(OrText(Some(api.message), "Failed to respond to alert"), "error"))
    ensures r.called && api.ApiOk? ==>
              |r.state.alerts| == |st.alerts|
              && (forall i :: 0 <= i < |st.alerts| && Key(st.alerts[i]) == alertId ==>
                    r.state.alerts[i] == st.alerts[i].(status := Some("responded"), responder := Some(user)))
              && (forall i :: 0 <= i < |st.alerts| && Key(st.alerts[i]) != alertId ==>
                    r.state.alerts[i] == st.alerts[i])
              && r.state.online == st.online && r.state.subscribed == st.subscribed
              && r.state.notices == st.notices + [TextNotice("Successfully responded! Route displayed on map", "success")]
              && r.state.selected.Some?
              && (api.value.Some? ==> r.state.selected == api.value)
              && (api.value.None? ==> r.state.selected == Some(st.alerts[FindIndex(st.alerts, KeyIs(alertId))]))
  {
    var k := FindIndex(st.alerts, KeyIs(alertId));
    if k == -1 then Handled(Raise(st, TextNotice("Alert not found", "error")), false)
    else
      match api
      case ApiOk(response) =>
        var chosen := if response.Some? then response.value else st.alerts[k];
        var next := st.(alerts := MapIf(st.alerts, KeyIs(alertId), TakenBy(user)), selected := Some(chosen));
        Handled(Raise(next, TextNotice("Successfully responded! Route displayed on map", "success")), true)
      case ApiError(message) =>
        Handled(Raise(st, TextNotice(OrText(Some(message), "Failed to respond to alert"), "error")), true)
  }

  /** "Arrived": the API is always called; on success the alerts with that id become
      active again with the arrival time `now`. The thrown error's own text is never read,
      so a failure always shows the fallback text. */
  function HandleMarkArrived(st: FireState, alertId: Option<string>, now: int, api: ApiResult<()>): (r: FireState)
    ensures api.ApiError? ==> r == Raise(st, TextNotice("Failed to update status", "error"))
    ensures api.ApiOk? ==>
              |r.alerts| == |st.alerts| && r.selected == st.selected && r.online == st.online
              && r.subscribed == st.subscribed
              && r.notices == st.notices + [TextNotice("Marked as arrived at scene", "success")]
              && (forall i :: 0 <= i < |st.alerts| && Key(st.alerts[i]) == alertId ==>
                    r.alerts[i] == st.alerts[i].(status := Some("active"), arrivedAt := Some(now)))
              && (forall i :: 0 <= i < |st.alerts| && Key(st.alerts[i]) != alertId ==>
                    r.alerts[i] == st.alerts[i])
  {
    match api
    case ApiOk(_) =>
      var next := st.(alerts := MapIf(st.alerts, KeyIs(alertId),
                                      (a: Alert) => a.(status := Some("active"), arrivedAt := Some(now))));
      Raise(next, TextNotice("Marked as arrived at scene", "success"))
    case ApiError(_) => Raise(st, TextNotice("Failed to update status", "error"))
  }

  /** `selectedAlert?._id === alertId || selectedAlert?.id === alertId`. */
  predicate SelectionIs(sel: Option<Alert>, alertId: Option<string>) {
    match sel
    case None => alertId.None?
    case Some(a) => a.dbId == alertId || a.id == alertId
  }

  /** "Resolve": on success the alerts with that id leave the list and a selection
      carrying that id is cleared. */
  function HandleResolve(st: FireState, alertId: Option<string>, api: ApiResult<()>): (r: FireState)
    ensures api.ApiError? ==> r == Raise(st, TextNotice("Failed to resolve incident", "error"))
    ensures api.ApiOk? ==>
              r.alerts == Filter(st.alerts, KeyIsNot(alertId))
              && (SelectionIs(st.selected, alertId) ==> r.selected.None?)
              && (!SelectionIs(st.selected, alertId) ==> r.selected == st.selected)
              && r.online == st.online && r.subscribed == st.subscribed
              && r.notices == st.notices + [TextNotice("Incident resolved successfully!", "success")]
  {
    match api
    case ApiOk(_) =>
      var sel := if SelectionIs(st.selected, alertId) then None else st.selected;
      Raise(st.(alerts := Filter(st.alerts, KeyIsNot(alertId)), selected := sel),
            TextNotice("Incident resolved successfully!", "success"))
    case ApiError(_) => Raise(st, TextNotice("Failed to resolve incident", "error"))
  }

  /** After a successful resolve no listed alert carries the id, every other alert is
      kept in order, and a selected alert with that id is no longer selected. */
  lemma ResolveRemovesExactly(st: FireState, alertId: Option<string>)
    ensures var r := HandleResolve(st, alertId, ApiOk(()));
            (forall a :: a in r.alerts <==> a in st.alerts && Key(a) != alertId)
            && Subseq(r.alerts, st.alerts)
            && (st.selected.Some? && Key(st.selected.value) == alertId ==> r.selected.None?)
  {
  }

  // ---------------------------------------------------------------- action gating

  /** "Respond to Incident" is offered: the incident is open and not already ours. */
  predicate ShowRespond(a: Alert, user: User) {
    IsOpen(a) && ResponderId(a) != user.dbId
  }

  /** "Arrived" and "Resolve" are offered: we responded and have not arrived yet. */
  predicate ShowArrivedAndResolve(a: Alert, user: User) {
    HasStatus(a, "responded") && ResponderId(a) == user.dbId
  }

  /** Only "Mark as Resolved" is offered: we are on scene. */
  predicate ShowResolveOnly(a: Alert, user: User) {
    HasStatus(a, "active") && ResponderId(a) == user.dbId
  }

  /** An incident card never offers two of the three action groups at once. */
  lemma ActionGroupsExclusive(a: Alert, user: User)
    ensures !(ShowRespond(a, user) && ShowArrivedAndResolve(a, user))
    ensures !(ShowRespond(a, user) && ShowResolveOnly(a, user))
    ensures !(ShowArrivedAndResolve(a, user) && ShowResolveOnly(a, user))
  {
  }

  /** The card lifecycle: responding turns "Respond" into "Arrived"/"Resolve", and
      arriving then leaves only "Mark as Resolved". */
  lemma RespondThenArrive(st: FireState, alertId: Option<string>, user: User, response: Option<Alert>, now: int)
    requires FindIndex(st.alerts, KeyIs(alertId)) != -1
    ensures var responded := HandleRespond(st, alertId, user, ApiOk(response)).state;
            var arrived := HandleMarkArrived(responded, alertId, now, ApiOk(()));
            forall i :: 0 <= i < |st.alerts| && Key(st.alerts[i]) == alertId ==>
              ShowArrivedAndResolve(responded.alerts[i], user) && !ShowRespond(responded.alerts[i], user)
              && ShowResolveOnly(arrived.alerts[i], user) && !ShowRespond(arrived.alerts[i], user)
  {
    var responded := HandleRespond(st, alertId, user, ApiOk(response)).state;
    var arrived := HandleMarkArrived(responded, alertId, now, ApiOk(()));
    forall i | 0 <= i < |st.alerts| && Key(st.alerts[i]) == alertId
      ensures ShowArrivedAndResolve(responded.alerts[i], user) && !ShowRespond(responded.alerts[i], user)
      ensures ShowResolveOnly(arrived.alerts[i], user) && !ShowRespond(arrived.alerts[i], user)
    {
      var a := responded.alerts[i];
      assert a == st.alerts[i].(status := Some("responded"), responder := Some(user));
      assert Key(a) == alertId;
      assert arrived.alerts[i] == a.(status := Some("active"), arrivedAt := Some(now));
    }
  }
}

=== FILE: hospital.dfy ===
/** The hospital dashboard: medical alerts, dispatching an ambulance, and the two
    liveness flags that guard its fetch and its push subscription. */
module Hospital {
  import opened Wrappers
  import opened Seqs
  import opened JsValues
  import opened Domain
  import opened Store
  import Realtime

  /** `mounted` guards the fetch effect, `subscribed` the push subscription. */
  datatype HospitalState = HospitalState(
    alerts: seq<Alert>,
    online: seq<OnlineUser>,
    selected: Option<Alert>,
    mounted: bool,
    subscribed: bool,
    notices: seq<NotificationInput>)

  /** Queues one notification input; nothing else changes. Mirrors `Fire.Raise` over this
      dashboard's state. */
  function Raise(st: HospitalState, n: NotificationInput): HospitalState {
    st.(notices := st.notices + [n])
  }

  /** `a.type === 'hospital'`: the fetch keeps every hospital alert, closed or not. */
  predicate IsHospitalAlert(a: Alert) {
    HasKind(a, "hospital")
  }

  /** The push channel admits only hospital alerts that are still open. */
  predicate IsOpenHospitalAlert(a: Alert) {
    HasKind(a, "hospital") && NotClosed(a)
  }

  /** A completed fetch. Its result is dropped once the effect is cleaned up; a failure
      is reported either way. */
  function OnFetched(st: HospitalState, response: ApiResult<seq<Alert>>): (r: HospitalState)
    ensures response.ApiOk? && !st.mounted ==> r == st
    ensures response.ApiOk? && st.mounted ==> r == st.(alerts := Filter(response.value, IsHospitalAlert))
    ensures response.ApiError? ==> r == Raise(st, TextNotice("Failed to load hospital alerts", "error"))
  {
    match response
    case ApiOk(data) => if st.mounted then st.(alerts := Filter(data, IsHospitalAlert)) else st
    case ApiError(_) => Raise(st, TextNotice("Failed to load hospital alerts", "error"))
  }

  /** The fetch and the push channel disagree: a resolved hospital alert is listed after
      a fetch but never admitted by a push. */
  lemma FetchKeepsWhatPushRejects(st: HospitalState, a: Alert)
    requires st.mounted && HasKind(a, "hospital") && HasStatus(a, "resolved")
    ensures a in OnFetched(st, ApiOk([a])).alerts
    ensures !IsOpenHospitalAlert(a)
  {
  }

  datatype HospitalEvent =
    | OnlineUsersUpdate(users: seq<OnlineUser>)
    | NewAlert(alert: Alert)
    | NewNotification(kind: Option<string>, title: Option<string>, message: Option<string>)
    | Unmount
    | Teardown

  function NewAlertNotice(a: Alert): (n: NotificationInput)
    ensures n.message == Some(OrText(a.description, "Medical emergency reported"))
    ensures n.kind == Some("warning")
  {
    Notice("warning", "New medical alert", OrText(a.description, "Medical emergency reported"))
  }

  /** One push event or effect cleanup. The push handlers check `subscribed`; unmounting
      only clears `mounted`. */
  function Receive(st: HospitalState, e: HospitalEvent): (r: HospitalState)
    ensures e.Unmount? ==> r == st.(mounted := false)
    ensures !e.Unmount? && !st.subscribed ==> r == st
    ensures st.subscribed && e.Teardown? ==> r == st.(subscribed := false)
    ensures st.subscribed && e.NewAlert? && IsOpenHospitalAlert(e.alert) ==>
              r == Raise(st.(alerts := [e.alert] + st.alerts), NewAlertNotice(e.alert))
    ensures e.NewAlert? && !IsOpenHospitalAlert(e.alert) ==> r == st
    ensures st.subscribed && e.OnlineUsersUpdate? ==> r == st.(online := e.users)
    ensures st.subscribed && e.NewNotification? ==>
              r == st.(notices := st.notices + [Realtime.PushNotice(e.kind, e.title, e.message)])
    ensures !e.NewAlert? ==> r.alerts == st.alerts
    ensures r.subscribed ==> st.subscribed
    ensures r.mounted ==> st.mounted
  {
    match e
    case Unmount => st.(mounted := false)
    case _ =>
      if !st.subscribed then st
      else
        match e
        case OnlineUsersUpdate(users) => st.(online := users)
        case NewAlert(a) =>
          if IsOpenHospitalAlert(a) then Raise(st.(alerts := [a] + st.alerts), NewAlertNotice(a)) else st
        case NewNotification(kind, title, message) => Raise(st, Realtime.PushNotice(kind, title, message))
        case Teardown => st.(subscribed := false)
  }

  function ReceiveAll(st: HospitalState, events: seq<HospitalEvent>): HospitalState
    decreases |events|
  {
    if |events| == 0 then st else ReceiveAll(Receive(st, events[0]), events[1..])
  }

  /** After both cleanups, no event and no late successful fetch changes the state. A
      late failed fetch still queues its error: the catch is not guarded by the mount flag. */
  lemma {:induction false} CleanedUpIgnoresAll(st: HospitalState, events: seq<HospitalEvent>, data: seq<Alert>)
    requires !st.subscribed && !st.mounted
    ensures ReceiveAll(st, events) == st
    ensures OnFetched(st, ApiOk(data)) == st
    decreases |events|
  {
    if |events| > 0 {
      CleanedUpIgnoresAll(Receive(st, events[0]), events[1..], data);
    }
  }

  // ---------------------------------------------------------------- stats

  datatype HospitalStats = HospitalStats(active: nat, awaiting: nat, responded: nat)

  function Stats(alerts: seq<Alert>): (s: HospitalStats)
    ensures s.active == |Filter(alerts, (a: Alert) => HasStatus(a, "active"))|
    ensures s.awaiting == |Filter(alerts, (a: Alert) => HasStatus(a, "pending"))|
    ensures s.responded == |Filter(alerts, (a: Alert) => HasStatus(a, "responded"))|
  {
    FilterLength(alerts, (a: Alert) => HasStatus(a, "active"));
    FilterLength(alerts, (a: Alert) => HasStatus(a, "pending"));
    FilterLength(alerts, (a: Alert) => HasStatus(a, "responded"));
    HospitalStats(Count(alerts, (a: Alert) => HasStatus(a, "active")),
                  Count(alerts, (a: Alert) => HasStatus(a, "pending")),
                  Count(alerts, (a: Alert) => HasStatus(a, "responded")))
  }

  // ---------------------------------------------------------------- dispatch

  /** `alertId || selectedAlert?._id || selectedAlert?.id`. */
  function DispatchTarget(alertId: Option<string>, sel: Option<Alert>): (id: Option<string>)
    ensures TruthyStr(alertId) ==> id == alertId
    ensures !TruthyStr(alertId) && sel.None? ==> id.None?
    ensures !TruthyStr(alertId) && sel.Some? ==> id == Key(sel.value)
  {
    match sel
    case None => OrStr(alertId, None)
    case Some(a) => OrStr(OrStr(alertId, a.dbId), a.id)
  }

  datatype Dispatched = Dispatched(state: HospitalState, called: bool)

  /** "Dispatch Ambulance": with a truthy target id the respond endpoint is called and, on
      success, the alerts with that id become responded by `user`; without one an error
      is raised and nothing is called. */
  function HandleDispatch(st: HospitalState, alertId: Option<string>, user: User, api: ApiResult<()>): (r: Dispatched)
    ensures r.called <==> TruthyStr(DispatchTarget(alertId, st.selected))
    ensures !r.called ==> r.state == Raise(st, TextNotice("Unable to dispatch ambulance: missing alert id", "error"))
    ensures r.called && api.ApiError? ==>
              r.state == Raise(st, TextNotice(OrText(Some(api.message), "Failed to dispatch ambulance"), "error"))
    ensures r.called && api.ApiOk? ==>
              var id := DispatchTarget(alertId, st.selected);
              |r.state.alerts| == |st.alerts|
              && r.state.online == st.online && r.state.selected == st.selected
              && r.state.mounted == st.mounted && r.state.subscribed == st.subscribed
              && r.state.notices == st.notices + [TextNotice("Ambulance dispatched", "success")]
              && (forall i :: 0 <= i < |st.alerts| && Key(st.alerts[i]) == id ==>
                    r.state.alerts[i] == st.alerts[i].(status := Some("responded"), responder := Some(user)))
              && (forall i :: 0 <= i < |st.alerts| && Key(st.alerts[i]) != id ==>
                    r.state.alerts[i] == st.alerts[i])
  {
    var id := DispatchTarget(alertId, st.selected);
    if !TruthyStr(id) then
      Dispatched(Raise(st, TextNotice("Unable to dispatch ambulance: missing alert id", "error")), false)
    else
      match api
      case ApiOk(_) =>
        var next := st.(alerts := MapIf(st.alerts, KeyIs(id),
                                        (a: Alert) => a.(status := Some("responded"), responder := Some(user))));
        Dispatched(Raise(next, TextNotice("Ambulance dispatched", "success")), true)
      case ApiError(message) =>
        Dispatched(Raise(st, TextNotice(OrText(Some(message), "Failed to dispatch ambulance"), "error")), true)
  }

  /** The card's dispatch button is shown for every alert not yet responded to. */
  predicate ShowDispatch(a: Alert) {
    !HasStatus(a, "responded")
  }

  /** A successful dispatch from a card hides that card's dispatch button. */
  lemma DispatchHidesButton(st: HospitalState, i: nat, user: User)
    requires i < |st.alerts| && TruthyStr(Key(st.alerts[i]))
    ensures var r := HandleDispatch(st, Key(st.alerts[i]), user, ApiOk(()));
            r.called && !ShowDispatch(r.state.alerts[i])
  {
  }

  /** The cards' dispatch count and the "Responded Today" tile partition the
      list's responded alerts exactly. */
  lemma DispatchButtonsAndRespondedTile(alerts: seq<Alert>)
    ensures Count(alerts, ShowDispatch) + Stats(alerts).responded == |alerts|
  {
    FilterLength(alerts, (a: Alert) => HasStatus(a, "responded"));
    CountComplement(alerts, ShowDispatch, (a: Alert) => HasStatus(a, "responded"));
  }
}

=== FILE: jsvalues.dfy ===
/** The parts of JavaScript value semantics the dashboards rely on: truthiness,
    `String.prototype.trim`, `toLowerCase`, `includes`, `length` in UTF-16 code
    units, and the decimal rendering of whole numbers in template strings. */
module JsValues {
  import opened Wrappers

  /** A string property is truthy when present and non-empty. */
  predicate TruthyStr(o: Option<string>) {
    o.Some? && |o.value| > 0
  }

  /** A numeric property is truthy when present and non-zero. */
  predicate TruthyNum(o: Option<real>) {
    o.Some? && o.value != 0.0
  }

  /** `a || b` on two optional strings: `a` when truthy, otherwise `b`. */
  function OrStr(a: Option<string>, b: Option<string>): (r: Option<string>)
    ensures TruthyStr(a) ==> r == a
    ensures !TruthyStr(a) ==> r == b
  {
    if TruthyStr(a) then a else b
  }

  /** `a || fallback` with a string fallback. */
  function OrText(a: Option<string>, fallback: string): (r: string)
    ensures TruthyStr(a) ==> r == a.value
    ensures !TruthyStr(a) ==> r == fallback
  {
    if TruthyStr(a) then a.value else fallback
  }

  /** How a template literal renders an optional string: `undefined` when absent. */
  function Interpolate(o: Option<string>): (r: string)
    ensures o.Some? ==> r == o.value
    ensures o.None? ==> r == "undefined"
  {
    match o
    case Some(s) => s
    case None => "undefined"
  }

  // ---------------------------------------------------------------- trim

  /** ECMAScript WhiteSpace and LineTerminator code points, the set `trim` strips. */
  predicate IsJsSpace(c: char) {
    || c == '\t' || c == '\n' || c == '\U{000B}' || c == '\U{000C}' || c == '\r'
    || c == ' ' || c == '\U{00A0}' || c == '\U{1680}'
    || ('\U{2000}' <= c <= '\U{200A}')
    || c == '\U{2028}' || c == '\U{2029}' || c == '\U{202F}' || c == '\U{205F}'
    || c == '\U{3000}' || c == '\U{FEFF}'
  }

  predicate AllSpace(s: string) {
    forall i :: 0 <= i < |s| ==> IsJsSpace(s[i])
  }

  /** Drops leading white space. */
  function TrimStart(s: string): (r: string)
    ensures |r| <= |s| && r == s[|s| - |r|..]
    ensures AllSpace(s[..|s| - |r|])
    ensures |r| > 0 ==> !IsJsSpace(r[0])
  {
    if |s| > 0 && IsJsSpace(s[0]) then
      var r := TrimStart(s[1..]);
      assert s[|s| - |r|..] == s[1..][|s| - 1 - |r|..];
      assert forall i :: 1 <= i < |s| - |r| ==> s[i] == s[1..][..|s| - 1 - |r|][i - 1];
      r
    else s
  }

  /** Drops trailing white space. */
  function TrimEnd(s: string): (r: string)
    ensures |r| <= |s| && r == s[..|r|]
    ensures AllSpace(s[|r|..])
    ensures |r| > 0 ==> !IsJsSpace(r[|r| - 1])
  {
    if |s| > 0 && IsJsSpace(s[|s| - 1]) then
      var r := TrimEnd(s[..|s| - 1]);
      assert forall i :: |r| <= i < |s| - 1 ==> s[i] == s[..|s| - 1][i];
      r
    else s
  }

  /** `String.prototype.trim`. */
  function Trim(s: string): string {
    TrimEnd(TrimStart(s))
  }

  /** A string trims to the empty string exactly when it consists of white space only. */
  lemma TrimEmptyIffAllSpace(s: string)
    ensures |Trim(s)| == 0 <==> AllSpace(s)
  {
    var a := TrimStart(s);
    TrimStartEmptyIffAllSpace(s);
    TrimEndEmptyIffAllSpace(a);
    if |a| > 0 {
      assert !IsJsSpace(a[0]);
    }
  }

  lemma TrimStartEmptyIffAllSpace(s: string)
    ensures |TrimStart(s)| == 0 <==> AllSpace(s)
  {
    var r := TrimStart(s);
    if |r| == 0 {
      assert s[..|s|] == s;
    } else {
      assert r[0] == s[|s| - |r|];
    }
  }

  lemma TrimEndEmptyIffAllSpace(t: string)
    ensures |TrimEnd(t)| == 0 <==> AllSpace(t)
  {
    var r := TrimEnd(t);
    if |r| == 0 {
      assert t[0..] == t;
    } else {
      assert r[|r| - 1] == t[|r| - 1];
    }
  }

  // ---------------------------------------------------------------- case and search

  /** `toLowerCase` on one character; only the ASCII letters are mapped. */
  function LowerChar(c: char): (r: char)
    ensures 'A' <= c <= 'Z' ==> r != c && 'a' <= r <= 'z'
    ensures !('A' <= c <= 'Z') ==> r == c
  {
    if 'A' <= c <= 'Z' then (c as int - 'A' as int + 'a' as int) as char else c
  }

  function ToLower(s: string): (r: string)
    ensures |r| == |s|
    ensures forall i :: 0 <= i < |s| ==> r[i] == LowerChar(s[i])
  {
    if |s| == 0 then "" else [LowerChar(s[0])] + ToLower(s[1..])
  }

  /** `sub` occurs in `s` starting at offset `i`. */
  predicate OccursAt(s: string, sub: string, i: int) {
    0 <= i <= |s| - |sub| && s[i..i + |sub|] == sub
  }

  /** `s.includes(sub)`: `sub` occurs in `s` at some offset. */
  predicate Includes(s: string, sub: string)
    ensures Includes(s, sub) <==> exists i :: OccursAt(s, sub, i)
  {
    if |sub| > |s| then false
    else if s[..|sub|] == sub then assert OccursAt(s, sub, 0); true
    else
      var r := Includes(s[1..], sub);
      assert forall i :: OccursAt(s[1..], sub, i) <==> OccursAt(s, sub, i + 1);
      assert !OccursAt(s, sub, 0);
      assert (exists i :: OccursAt(s, sub, i)) ==> exists j :: OccursAt(s[1..], sub, j) by {
        if exists i :: OccursAt(s, sub, i) {
          var i :| OccursAt(s, sub, i);
          assert OccursAt(s[1..], sub, i - 1);
        }
      }
      r
  }

  // ---------------------------------------------------------------- length

  /** `s.length`: code points above U+FFFF occupy two UTF-16 code units. */
  function Utf16Length(s: string): (n: nat)
    ensures |s| <= n <= 2 * |s|
    ensures (forall i :: 0 <= i < |s| ==> s[i] as int <= 0xFFFF) ==> n == |s|
  {
    if |s| == 0 then 0
    else
      assert forall i :: 1 <= i < |s| ==> s[i] == s[1..][i - 1];
      (if s[0] as int > 0xFFFF then 2 else 1) + Utf16Length(s[1..])
  }

  // ---------------------------------------------------------------- numbers in templates

  predicate IsDigit(c: char) {
    '0' <= c <= '9'
  }

  function DigitChar(d: nat): (c: char)
    requires d < 10
    ensures IsDigit(c) && c as int - '0' as int == d
  {
    ('0' as int + d) as char
  }

  /** How `${n}` renders a whole number: its decimal digits, most significant first. */
  function DecimalString(n: nat): (s: string)
    ensures |s| >= 1
    ensures forall i :: 0 <= i < |s| ==> IsDigit(s[i])
  {
    if n < 10 then [DigitChar(n)] else DecimalString(n / 10) + [DigitChar(n % 10)]
  }

  /** Reads a non-empty run of decimal digits back as a number. */
  function ParseDecimal(s: string): Option<nat> {
    if |s| == 0 || !IsDigit(s[|s| - 1]) then None
    else
      var d := s[|s| - 1] as int - '0' as int;
      if |s| == 1 then Some(d)
      else match ParseDecimal(s[..|s| - 1])
        case None => None
        case Some(v) => Some(10 * v + d)
  }

  /** Rendering a number and reading it back is the identity. */
  lemma {:induction false} DecimalRoundTrip(n: nat)
    ensures ParseDecimal(DecimalString(n)) == Some(n)
  {
    if n >= 10 {
      DecimalRoundTrip(n / 10);
      var s := DecimalString(n);
      assert s[..|s| - 1] == DecimalString(n / 10);
    }
  }
}

=== FILE: livemap.dfy ===
/** The decisions of the live map: which alerts and online users get a marker and in
    which variant, when the viewport is refitted, and when a route is requested. */
module LiveMap {
  import opened Wrappers
  import opened Seqs
  import opened JsValues
  import opened Domain
  import opened Markers

  // ---------------------------------------------------------------- alert coordinates

  /** The marker effect's coordinate lookup: `alert.coordinates`, then GeoJSON
      `location.coordinates.coordinates`, then a bare `location.coordinates` array,
      then a `location.coordinates` object whose `lat` and `lng` are both truthy.
      The first present source wins even when its values later fail the check. */
  function MarkerCoords(a: Alert): (c: Option<Coords>)
    ensures a.coordinates.Some? ==> c == a.coordinates
    ensures a.coordinates.None? && !a.location.Structured? ==> c.None?
  {
    if a.coordinates.Some? then a.coordinates
    else match a.location
      case Structured(_, Some(GeoJson(pts))) => Some(FromLngLat(pts))
      case Structured(_, Some(CoordArray(pts))) => Some(FromLngLat(pts))
      case Structured(_, Some(LatLngObject(c))) =>
        if TruthyNum(c.lat) && TruthyNum(c.lng) then Some(c) else None
      case _ => None
  }

  /** The position an alert's marker is placed at, or `None` when the alert is skipped
      because no coordinates were found or `lat`/`lng` is missing or zero. */
  function MarkerPoint(a: Alert): (p: Option<Point>)
    ensures p.Some? <==> MarkerCoords(a).Some? && TruthyNum(MarkerCoords(a).value.lat) && TruthyNum(MarkerCoords(a).value.lng)
    ensures p.Some? ==> p.value.lat != 0.0 && p.value.lng != 0.0
    ensures p.Some? ==> Some(p.value.lat) == MarkerCoords(a).value.lat && Some(p.value.lng) == MarkerCoords(a).value.lng
  {
    match MarkerCoords(a)
    case None => None
    case Some(c) => if TruthyNum(c.lat) && TruthyNum(c.lng) then Some(Point(c.lat.value, c.lng.value)) else None
  }

  predicate HasMarker(a: Alert) {
    MarkerPoint(a).Some?
  }

  /** The four historical encodings of one position all give the same marker. */
  lemma EncodingsAgree(a: Alert, lat: real, lng: real)
    requires lat != 0.0 && lng != 0.0
    requires a.coordinates.None?
    ensures MarkerPoint(a.(coordinates := Some(Coords(Some(lat), Some(lng))))) == Some(Point(lat, lng))
    ensures MarkerPoint(a.(location := Structured(None, Some(GeoJson([lng, lat]))))) == Some(Point(lat, lng))
    ensures MarkerPoint(a.(location := Structured(None, Some(CoordArray([lng, lat]))))) == Some(Point(lat, lng))
    ensures MarkerPoint(a.(location := Structured(None, Some(LatLngObject(Coords(Some(lat), Some(lng))))))) == Some(Point(lat, lng))
  {
  }

  /** A present `alert.coordinates` shadows the location entirely, even a valid one. */
  lemma CoordinatesShadowLocation(a: Alert, loc: Location)
    requires a.coordinates.Some?
    ensures MarkerPoint(a.(location := loc)) == MarkerPoint(a)
  {
  }

  /** Zero is falsy: an alert at latitude 0 gets no marker, whatever its other sources say. */
  lemma ZeroLatitudeSkipped(a: Alert, lng: real)
    ensures !HasMarker(a.(coordinates := Some(Coords(Some(0.0), Some(lng)))))
  {
  }

  // ---------------------------------------------------------------- markers

  datatype AlertMarker = AlertMarker(at: Point, pin: Pin, alert: Alert)

  datatype UserMarker = UserMarker(at: Coords, style: UserStyle, user: OnlineUser)

  /** The alerts behind a list of markers, in order; `MapboxMap.MarkedAlerts` is the
      same view over the other map component's marker type. */
  function MarkedAlerts(ms: seq<AlertMarker>): seq<Alert> {
    Map(ms, (m: AlertMarker) => m.alert)
  }

  function MarkedUsers(ms: seq<UserMarker>): seq<OnlineUser> {
    Map(ms, (m: UserMarker) => m.user)
  }

  /** The alert half of the marker effect: exactly the alerts with a position, in
      order, one marker each, placed at that position with the pin of the alert's type. */
  function AlertMarkers(alerts: seq<Alert>): (ms: seq<AlertMarker>)
    ensures MarkedAlerts(ms) == Filter(alerts, HasMarker)
    ensures forall i :: 0 <= i < |ms| ==> MarkerPoint(ms[i].alert) == Some(ms[i].at) && ms[i].pin == PinFor(ms[i].alert.kind)
  {
    if |alerts| == 0 then []
    else
      var a := alerts[0];
      var rest := AlertMarkers(alerts[1..]);
      match MarkerPoint(a)
      case None =>
        FilterCons(alerts, HasMarker);
        rest
      case Some(p) =>
        var m := AlertMarker(p, PinFor(a.kind), a);
        MarkedAlertsCons(m, rest);
        FilterCons(alerts, HasMarker);
        [m] + rest
  }

  lemma MarkedAlertsCons(m: AlertMarker, rest: seq<AlertMarker>)
    ensures MarkedAlerts([m] + rest) == [m.alert] + MarkedAlerts(rest)
  {
    assert ([m] + rest)[1..] == rest;
  }

  predicate HasLocation(u: OnlineUser) {
    u.location.Some?
  }

  /** The user half: every online user with a `location` gets one marker, whatever its
      `userType`; the position is not checked further. */
  function UserMarkers(users: seq<OnlineUser>): (ms: seq<UserMarker>)
    ensures MarkedUsers(ms) == Filter(users, HasLocation)
    ensures forall i :: 0 <= i < |ms| ==> ms[i].user.location == Some(ms[i].at) && ms[i].style == StyleFor(ms[i].user.userType)
  {
    if |users| == 0 then []
    else
      var u := users[0];
      var rest := UserMarkers(users[1..]);
      match u.location
      case None =>
        FilterCons(users, HasLocation);
        rest
      case Some(c) =>
        var m := UserMarker(c, StyleFor(u.userType), u);
        MarkedUsersCons(m, rest);
        FilterCons(users, HasLocation);
        [m] + rest
  }

  lemma MarkedUsersCons(m: UserMarker, rest: seq<UserMarker>)
    ensures MarkedUsers([m] + rest) == [m.user] + MarkedUsers(rest)
  {
    assert ([m] + rest)[1..] == rest;
  }

  /** Whether an alert is drawn does not depend on its type: unknown types get the default pin. */
  lemma MarkerIgnoresType(a: Alert, kind: Option<string>)
    ensures HasMarker(a.(kind := kind)) == HasMarker(a)
  {
  }

  /** The number of markers drawn equals the number of alerts with a position. */
  lemma AlertMarkerCount(alerts: seq<Alert>)
    ensures |AlertMarkers(alerts)| == Count(alerts, HasMarker)
  {
    FilterLength(alerts, HasMarker);
  }

  // ---------------------------------------------------------------- auto-fit

  /** The gate in front of the viewport refit: some marker exists, the map is not
      being moved, and nothing is selected. */
  predicate FitGate(markerCount: nat, moving: bool, selected: bool) {
    markerCount > 0 && !moving && !selected
  }

  /** The refit's own coordinate lookup, which knows only `alert.coordinates` and GeoJSON. */
  function FitAlertPoint(a: Alert): (p: Option<Point>)
    ensures p.Some? ==> p.value.lat != 0.0 && p.value.lng != 0.0
  {
    var c :=
      if a.coordinates.Some? then a.coordinates
      else match a.location
        case Structured(_, Some(GeoJson(pts))) => Some(FromLngLat(pts))
        case _ => None;
    if c.Some? && TruthyNum(c.value.lat) && TruthyNum(c.value.lng) then Some(Point(c.value.lat.value, c.value.lng.value)) else None
  }

  function FitAlertPoints(alerts: seq<Alert>): (r: seq<Point>)
    ensures |r| <= |alerts|
  {
    if |alerts| == 0 then []
    else match FitAlertPoint(alerts[0])
      case None => FitAlertPoints(alerts[1..])
      case Some(p) => [p] + FitAlertPoints(alerts[1..])
  }

  function FitUserPoints(users: seq<OnlineUser>): (r: seq<Point>)
    ensures |r| <= |users|
  {
    if |users| == 0 then []
    else
      var u := users[0];
      if u.location.Some? && TruthyNum(u.location.value.lat) && TruthyNum(u.location.value.lng) then
        [Point(u.location.value.lat.value, u.location.value.lng.value)] + FitUserPoints(users[1..])
      else FitUserPoints(users[1..])
  }

  /** The viewport refit of the marker effect: `None` when `fitBounds` is not called,
      otherwise the non-empty list of points the bounds are extended with. */
  function AutoFit(mapReady: bool, alerts: seq<Alert>, users: seq<OnlineUser>, own: Option<Point>,
                   moving: bool, selected: bool): (r: Option<seq<Point>>)
    ensures r.Some? ==> mapReady && FitGate(|AlertMarkers(alerts)| + |UserMarkers(users)|, moving, selected)
    ensures r.Some? ==> |r.value| > 0
    ensures r.Some? ==> r.value == FitAlertPoints(alerts) + FitUserPoints(users) + (if own.Some? then [own.value] else [])
  {
    if !mapReady || !FitGate(|AlertMarkers(alerts)| + |UserMarkers(users)|, moving, selected) then None
    else
      var pts := FitAlertPoints(alerts) + FitUserPoints(users) + (if own.Some? then [own.value] else []);
      if |pts| > 0 then Some(pts) else None
  }

  /** The refit runs exactly when the map exists, something is drawn, the map is still,
      nothing is selected, and the bounds would not be empty. */
  lemma AutoFitGate(alerts: seq<Alert>, users: seq<OnlineUser>, own: Option<Point>, moving: bool, selected: bool)
    ensures AutoFit(true, alerts, users, own, moving, selected).Some? <==>
      && (Count(alerts, HasMarker) > 0 || Count(users, HasLocation) > 0)
      && !moving && !selected
      && (|FitAlertPoints(alerts)| > 0 || |FitUserPoints(users)| > 0 || own.Some?)
  {
    FilterLength(alerts, HasMarker);
    FilterLength(users, HasLocation);
  }

  /** A bare-array alert is drawn but ignored when the viewport is fitted. */
  lemma BareArrayDrawnButNotFitted()
    ensures var a := Alert(None, None, None, None, None, None,
                           Structured(None, Some(CoordArray([123.18, 13.62]))), None,
                           NoReporter, None, None, None, None);
            HasMarker(a) && FitAlertPoint(a).None?
  {
  }

  // ---------------------------------------------------------------- navigation

  datatype Navigation = NavIgnored | NavRoute(from: Point, to: Point)

  /** `handleNavigate`'s lookup: `item.coordinates`, then GeoJSON, then `item.location`
      itself; it has no bare-array branch. */
  function NavigateCoords(a: Alert): (c: Option<Coords>)
    ensures a.coordinates.Some? ==> c == a.coordinates
  {
    if a.coordinates.Some? then a.coordinates
    else match a.location
      case Structured(_, Some(GeoJson(pts))) => Some(FromLngLat(pts))
      case NoLocation => None
      case Text(t) => if |t| > 0 then Some(Coords(None, None)) else None
      case Structured(_, _) => Some(Coords(None, None))
      case Flat(c) => Some(c)
  }

  /** `handleNavigate`: a directions request from the device to the alert, or nothing
      when the map or the device location is missing or the target lacks `lat`/`lng`. */
  function Navigate(mapReady: bool, own: Option<Point>, a: Alert): (r: Navigation)
    ensures !mapReady || own.None? ==> r == NavIgnored
    ensures r.NavRoute? ==> r.from == own.value && r.to.lat != 0.0 && r.to.lng != 0.0
    ensures r.NavRoute? <==> mapReady && own.Some? && NavigateCoords(a).Some?
                             && TruthyNum(NavigateCoords(a).value.lat) && TruthyNum(NavigateCoords(a).value.lng)
  {
    if !mapReady || own.None? then NavIgnored
    else match NavigateCoords(a)
      case None => NavIgnored
      case Some(c) =>
        if TruthyNum(c.lat) && TruthyNum(c.lng) then NavRoute(own.value, Point(c.lat.value, c.lng.value))
        else NavIgnored
  }

  /** Where an alert's position comes from `alert.coordinates` or GeoJSON, the route
      target is its marker position. */
  lemma NavigateAgreesWithMarker(own: Point, a: Alert)
    requires a.coordinates.Some? || (a.location.Structured? && a.location.coordinates.Some? && a.location.coordinates.value.GeoJson?)
    ensures Navigate(true, Some(own), a) == if HasMarker(a) then NavRoute(own, MarkerPoint(a).value) else NavIgnored
  {
  }

  /** The two lookups differ: a bare array is drawn but cannot be routed to, and a flat
      `{lat, lng}` location can be routed to but is not drawn. */
  lemma NavigateDiffersFromMarker(own: Point)
    ensures var bare := Alert(None, None, None, None, None, None,
                              Structured(None, Some(CoordArray([123.18, 13.62]))), None,
                              NoReporter, None, None, None, None);
            HasMarker(bare) && Navigate(true, Some(own), bare) == NavIgnored
    ensures var flat := Alert(None, None, None, None, None, None,
                              Flat(Coords(Some(13.62), Some(123.18))), None,
                              NoReporter, None, None, None, None);
            !HasMarker(flat) && Navigate(true, Some(own), flat) == NavRoute(own, Point(13.62, 123.18))
  {
  }

  // ---------------------------------------------------------------- route flag

  /** The directions response: `None` when the request failed, else the number of routes. */
  function AfterDirections(showing: bool, routes: Option<nat>): (r: bool)
    ensures routes.Some? && routes.value > 0 ==> r
    ensures !(routes.Some? && routes.value > 0) ==> r == showing
  {
    if routes.Some? && routes.value > 0 then true else showing
  }

  /** `clearRoute`: hides the route when the map exists, otherwise does nothing. */
  function ClearRoute(mapReady: bool, showing: bool): (r: bool)
    ensures mapReady ==> !r
    ensures !mapReady ==> r == showing
  {
    if mapReady then false else showing
  }

  /** Showing a found route and then clearing it leaves no route shown, from any state. */
  lemma ShowThenClear(showing: bool, routes: nat)
    requires routes > 0
    ensures AfterDirections(showing, Some(routes))
    ensures !ClearRoute(true, AfterDirections(showing, Some(routes)))
  {
  }
}

=== FILE: mapboxmap.dfy ===
/** The older map component: it draws only alerts carrying `alert.coordinates` and
    flies to the first alert. */
module MapboxMap {
  import opened Wrappers
  import opened Seqs
  import opened Domain
  import opened Markers

  datatype MapboxMarker = MapboxMarker(at: Coords, pin: Pin, alert: Alert)

  /** What one run of the marker effect does: nothing at all (markers are not even
      cleared), or redraw these markers and optionally fly to a position. */
  datatype MarkerEffect = Untouched | Redrawn(markers: seq<MapboxMarker>, flyTo: Option<Coords>)

  predicate HasCoordinates(a: Alert) {
    a.coordinates.Some?
  }

  /** The alerts behind a list of markers, in order; the same view as `LiveMap.MarkedAlerts`
      over this component's own marker type. */
  function MarkedAlerts(ms: seq<MapboxMarker>): seq<Alert> {
    Map(ms, (m: MapboxMarker) => m.alert)
  }

  /** One marker per alert with `coordinates`, in order; alerts with only a `location`
      are skipped and the values themselves are not checked. */
  function CoordinateMarkers(alerts: seq<Alert>): (ms: seq<MapboxMarker>)
    ensures MarkedAlerts(ms) == Filter(alerts, HasCoordinates)
    ensures forall i :: 0 <= i < |ms| ==> ms[i].alert.coordinates == Some(ms[i].at) && ms[i].pin == PinFor(ms[i].alert.kind)
  {
    if |alerts| == 0 then []
    else
      var a := alerts[0];
      var rest := CoordinateMarkers(alerts[1..]);
      match a.coordinates
      case None =>
        FilterCons(alerts, HasCoordinates);
        rest
      case Some(c) =>
        var m := MapboxMarker(c, PinFor(a.kind), a);
        MarkedAlertsCons(m, rest);
        FilterCons(alerts, HasCoordinates);
        [m] + rest
  }

  lemma MarkedAlertsCons(m: MapboxMarker, rest: seq<MapboxMarker>)
    ensures MarkedAlerts([m] + rest) == [m.alert] + MarkedAlerts(rest)
  {
    assert ([m] + rest)[1..] == rest;
  }

  /** The marker effect: an early exit without a map or with an empty list, otherwise a
      redraw that flies to the first alert exactly when that alert has `coordinates`. */
  function RenderMarkers(mapReady: bool, alerts: seq<Alert>): (r: MarkerEffect)
    ensures r.Untouched? <==> !mapReady || |alerts| == 0
    ensures r.Redrawn? ==> r.markers == CoordinateMarkers(alerts)
    ensures r.Redrawn? ==> (r.flyTo.Some? <==> alerts[0].coordinates.Some?)
    ensures r.Redrawn? && r.flyTo.Some? ==> r.flyTo == alerts[0].coordinates
  {
    if !mapReady || |alerts| == 0 then Untouched
    else Redrawn(CoordinateMarkers(alerts), alerts[0].coordinates)
  }

  /** The fly-to target, when there is one, is where the first marker is drawn. */
  lemma FlyToFirstMarker(alerts: seq<Alert>)
    requires |alerts| > 0
    ensures var r := RenderMarkers(true, alerts);
            r.flyTo.Some? ==> |r.markers| > 0 && r.markers[0].at == r.flyTo.value
  {
    var r := RenderMarkers(true, alerts);
    if r.flyTo.Some? {
      assert alerts == [alerts[0]] + alerts[1..];
      assert r.markers[0].alert == alerts[0];
    }
  }

  /** An alert located only through `location` is never drawn here. */
  lemma LocationOnlySkipped(alerts: seq<Alert>, i: nat)
    requires i < |alerts| && alerts[i].coordinates.None?
    ensures forall m :: m in CoordinateMarkers(alerts) ==> m.alert != alerts[i]
  {
    var ms := CoordinateMarkers(alerts);
    forall m | m in ms ensures m.alert != alerts[i] {
      var j :| 0 <= j < |ms| && ms[j] == m;
      assert m.alert in Filter(alerts, HasCoordinates) by {
        assert MarkedAlerts(ms)[j] == m.alert;
      }
    }
  }

  /** `handleNavigate`: the guard, then a request to `alert.coordinates`, which throws a
      `TypeError` when the alert has none. */
  datatype Navigation = NavIgnored | NavRoute(from: Point, to: Coords) | NavTypeError

  function Navigate(mapReady: bool, own: Option<Point>, a: Alert): (r: Navigation)
    ensures !mapReady || own.None? ==> r == NavIgnored
    ensures r.NavRoute? ==> r.from == own.value && a.coordinates == Some(r.to)
    ensures r == NavTypeError <==> mapReady && own.Some? && a.coordinates.None?
    ensures mapReady && own.Some? && a.coordinates.Some? ==> r == NavRoute(own.value, a.coordinates.value)
  {
    if !mapReady || own.None? then NavIgnored
    else match a.coordinates
      case None => NavTypeError
      case Some(c) => NavRoute(own.value, c)
  }

  /** An alert that was drawn can always be routed to once the map and location exist. */
  lemma DrawnAlertsRoutable(alerts: seq<Alert>, own: Point, m: MapboxMarker)
    requires m in CoordinateMarkers(alerts)
    ensures Navigate(true, Some(own), m.alert) == NavRoute(own, m.at)
  {
    var ms := CoordinateMarkers(alerts);
    var j :| 0 <= j < |ms| && ms[j] == m;
  }
}

=== FILE: mappage.dfy ===
/** The public live map page: open alerts, the presence roster, and the type filter
    that drives the "Recent Alerts" grid. */
module MapPage {
  import opened Wrappers
  import opened Seqs
  import opened Domain
  import Realtime

  datatype MapState = MapState(alerts: seq<Alert>, online: seq<OnlineUser>)

  /** A completed fetch. `response.data.filter` throws when the response has no `data`
      array (`None`), and the failure is swallowed, leaving the list as it was. */
  function OnFetched(st: MapState, data: Option<seq<Alert>>): (r: MapState)
    ensures data.None? ==> r == st
    ensures data.Some? ==> r.online == st.online
    ensures data.Some? ==> forall a :: a in r.alerts <==> a in data.value && IsOpen(a)
    ensures data.Some? ==> Subseq(r.alerts, data.value)
    ensures data.Some? ==>
              forall a :: multiset(r.alerts)[a] == if IsOpen(a) then multiset(data.value)[a] else 0
  {
    match data
    case None => st
    case Some(list) => st.(alerts := Filter(list, IsOpen))
  }

  datatype MapEvent =
    | OnlineUsersUpdate(users: seq<OnlineUser>)
    | UserLocationUpdate(userId: Option<string>, location: Option<Coords>)
    | NewAlert(alert: Alert)

  /** One push event. This page keeps no liveness flag. */
  function Receive(st: MapState, e: MapEvent): (r: MapState)
    ensures e.NewAlert? && IsOpen(e.alert) ==> r == st.(alerts := [e.alert] + st.alerts)
    ensures e.NewAlert? && !IsOpen(e.alert) ==> r == st
    ensures e.UserLocationUpdate? ==>
              r == st.(online := Realtime.UpdateLocation(st.online, e.userId, e.location))
    ensures e.OnlineUsersUpdate? ==> r == st.(online := e.users)
  {
    match e
    case OnlineUsersUpdate(users) => st.(online := users)
    case UserLocationUpdate(userId, location) =>
      st.(online := Realtime.UpdateLocation(st.online, userId, location))
    case NewAlert(a) => if IsOpen(a) then st.(alerts := [a] + st.alerts) else st
  }

  function ReceiveAll(st: MapState, events: seq<MapEvent>): MapState
    decreases |events|
  {
    if |events| == 0 then st else ReceiveAll(Receive(st, events[0]), events[1..])
  }

  /** Fetches and pushes agree on what the page lists: starting from a fetched list,
      any sequence of events keeps every listed alert open. */
  lemma {:induction false} ListStaysOpen(st: MapState, events: seq<MapEvent>)
    requires forall i :: 0 <= i < |st.alerts| ==> IsOpen(st.alerts[i])
    ensures forall i :: 0 <= i < |ReceiveAll(st, events).alerts| ==> IsOpen(ReceiveAll(st, events).alerts[i])
    decreases |events|
  {
    if |events| > 0 {
      var next := Receive(st, events[0]);
      assert forall i :: 0 <= i < |next.alerts| ==> IsOpen(next.alerts[i]) by {
        if events[0].NewAlert? && IsOpen(events[0].alert) {
          assert forall i :: 1 <= i < |next.alerts| ==> next.alerts[i] == st.alerts[i - 1];
        }
      }
      ListStaysOpen(next, events[1..]);
      assert ReceiveAll(st, events) == ReceiveAll(next, events[1..]);
    }
  }

  /** `a.type === t`, as a predicate value. */
  function KindIs(t: string): Alert -> bool {
    (a: Alert) => HasKind(a, t)
  }

  /** `filteredAlerts`: the `'all'` filter shows everything, any other shows that type. */
  function FilterByType(alerts: seq<Alert>, filterType: string): (r: seq<Alert>)
    ensures filterType == "all" ==> r == alerts
    ensures filterType != "all" ==> forall a :: a in r <==> a in alerts && HasKind(a, filterType)
    ensures filterType != "all" ==>
              forall a :: multiset(r)[a] == if HasKind(a, filterType) then multiset(alerts)[a] else 0
    ensures Subseq(r, alerts)
  {
    if filterType == "all" then
      FilterAll(alerts, (a: Alert) => true);
      assert Filter(alerts, (a: Alert) => true) == alerts;
      alerts
    else Filter(alerts, KindIs(filterType))
  }

  /** The "Recent Alerts" grid: the first six alerts of the filtered list. */
  function RecentAlerts(alerts: seq<Alert>, filterType: string): (r: seq<Alert>)
    ensures |r| <= 6 && |r| <= |FilterByType(alerts, filterType)|
    ensures r == FilterByType(alerts, filterType)[..|r|]
    ensures |FilterByType(alerts, filterType)| >= 6 ==> |r| == 6
    ensures |FilterByType(alerts, filterType)| < 6 ==> r == FilterByType(alerts, filterType)
  {
    Take(FilterByType(alerts, filterType), 6)
  }

  /** The grid is shown iff some alert passes the filter. */
  lemma GridShownIffMatch(alerts: seq<Alert>, filterType: string)
    ensures |RecentAlerts(alerts, filterType)| > 0 <==>
              (filterType == "all" && |alerts| > 0)
              || (filterType != "all" && exists i :: 0 <= i < |alerts| && HasKind(alerts[i], filterType))
  {
    var f := FilterByType(alerts, filterType);
    if filterType != "all" {
      if exists i :: 0 <= i < |alerts| && HasKind(alerts[i], filterType) {
        var i :| 0 <= i < |alerts| && HasKind(alerts[i], filterType);
        assert alerts[i] in f;
      }
      if |f| > 0 {
        assert f[0] in alerts;
      }
    }
  }
}

=== FILE: markers.dfy ===
/** The marker variants both map components choose from, keyed by alert `type` and by
    online-user `userType`. Both lookups are total: an unknown key picks the default. */
module Markers {
  import opened Wrappers
  import opened Domain

  datatype Pin = PolicePin | HospitalPin | FirePin | DefaultPin

  datatype UserStyle = CitizenStyle | PoliceStyle | HospitalStyle | FireStyle | FamilyStyle | DefaultStyle

  /** `pinDesigns[alert.type] || pinDesigns.default`; there is no `family` pin. */
  function PinFor(kind: Option<string>): (p: Pin)
    ensures p == PolicePin <==> kind == Some("police")
    ensures p == HospitalPin <==> kind == Some("hospital")
    ensures p == FirePin <==> kind == Some("fire")
    ensures p == DefaultPin <==> kind !in {Some("police"), Some("hospital"), Some("fire")}
  {
    match kind
    case Some("police") => PolicePin
    case Some("hospital") => HospitalPin
    case Some("fire") => FirePin
    case _ => DefaultPin
  }

  /** `userStyles[user.userType] || <default style>`; `family` users keep their own style. */
  function StyleFor(userType: Option<string>): (st: UserStyle)
    ensures st == CitizenStyle <==> userType == Some("citizen")
    ensures st == PoliceStyle <==> userType == Some("police")
    ensures st == HospitalStyle <==> userType == Some("hospital")
    ensures st == FireStyle <==> userType == Some("fire")
    ensures st == FamilyStyle <==> userType == Some("family")
    ensures st == DefaultStyle <==> userType !in {Some("citizen"), Some("police"), Some("hospital"), Some("fire"), Some("family")}
  {
    match userType
    case Some("citizen") => CitizenStyle
    case Some("police") => PoliceStyle
    case Some("hospital") => HospitalStyle
    case Some("fire") => FireStyle
    case Some("family") => FamilyStyle
    case _ => DefaultStyle
  }

  /** `arr[i]` on a coordinate array: out-of-range reads are `undefined`. */
  function At(points: seq<real>, i: nat): (r: Option<real>)
    ensures i < |points| ==> r == Some(points[i])
    ensures i >= |points| ==> r.None?
  {
    if i < |points| then Some(points[i]) else None
  }

  /** A GeoJSON or bare coordinate array `[lng, lat]` read as `{ lat, lng }`. */
  function FromLngLat(points: seq<real>): (c: Coords)
    ensures c.lng == At(points, 0) && c.lat == At(points, 1)
  {
    Coords(At(points, 1), At(points, 0))
  }
}

=== FILE: passwords.dfy ===
/** Changing the signed-in user's password, as both the citizen dashboard and the
    settings page do it: the new password must match its confirmation and be at least
    six UTF-16 code units long before the REST API is called. */
module Passwords {
  import opened Wrappers
  import opened JsValues
  import opened Domain
  import opened Store

  /** The minimum `length` of an acceptable password. */
  const MinLength: nat := 6

  /** The client-side verdict on a new password; a mismatch is reported first. */
  datatype Verdict = Mismatch | TooShort | Acceptable

  function Check(newPassword: string, confirm: string): (v: Verdict)
    ensures v == Mismatch <==> newPassword != confirm
    ensures v == TooShort <==> newPassword == confirm && Utf16Length(newPassword) < MinLength
    ensures v == Acceptable <==> newPassword == confirm && Utf16Length(newPassword) >= MinLength
  {
    if newPassword != confirm then Mismatch
    else if Utf16Length(newPassword) < MinLength then TooShort
    else Acceptable
  }

  /** Six ASCII characters are the shortest acceptable ASCII password. */
  lemma AsciiBoundary()
    ensures Check("abcde", "abcde") == TooShort
    ensures Check("abcdef", "abcdef") == Acceptable
  {
  }

  /** `length` counts code units, so three emoji pass the six-character rule. */
  lemma ThreeEmojiAccepted()
    ensures var p := "\U{1F525}\U{1F525}\U{1F525}"; |p| == 3 && Check(p, p) == Acceptable
  {
  }

  /** The change-password form. */
  datatype PasswordForm = PasswordForm(currentPassword: string, newPassword: string, confirmPassword: string)

  /** The body sent to the change-password endpoint. */
  datatype ChangeRequest = ChangeRequest(currentPassword: string, newPassword: string)

  /** What one press of "Change Password" does: the request sent (if any), the notice
      raised, the form afterwards and whether the form stays open. */
  datatype ChangeOutcome = ChangeOutcome(request: Option<ChangeRequest>, notice: NotificationInput,
                                         form: PasswordForm, editing: bool)

  const EmptyForm := PasswordForm("", "", "")

  function ChangePassword(form: PasswordForm, editing: bool, api: ApiResult<()>): (r: ChangeOutcome)
    ensures r.request.Some? <==> Check(form.newPassword, form.confirmPassword) == Acceptable
    ensures r.request.Some? ==>
              r.request.value == ChangeRequest(form.currentPassword, form.newPassword)
    ensures Check(form.newPassword, form.confirmPassword) == Mismatch ==>
              r.notice == Notice("error", "Password Mismatch", "New password and confirm password do not match")
    ensures Check(form.newPassword, form.confirmPassword) == TooShort ==>
              r.notice == Notice("error", "Invalid Password", "Password must be at least 6 characters long")
    ensures r.request.Some? && api.ApiOk? ==>
              r.form == EmptyForm && !r.editing
              && r.notice == Notice("success", "Password Changed", "Your password has been changed successfully")
    ensures r.request.Some? && api.ApiError? ==>
              r.notice == Notice("error", "Password Change Failed", OrText(Some(api.message), "Failed to change password"))
    ensures !(r.request.Some? && api.ApiOk?) ==> r.form == form && r.editing == editing
  {
    match Check(form.newPassword, form.confirmPassword)
    case Mismatch =>
      ChangeOutcome(None, Notice("error", "Password Mismatch", "New password and confirm password do not match"), form, editing)
    case TooShort =>
      ChangeOutcome(None, Notice("error", "Invalid Password", "Password must be at least 6 characters long"), form, editing)
    case Acceptable =>
      var request := ChangeRequest(form.currentPassword, form.newPassword);
      match api
      case ApiOk(_) =>
        ChangeOutcome(Some(request), Notice("success", "Password Changed", "Your password has been changed successfully"),
                      EmptyForm, false)
      case ApiError(message) =>
        ChangeOutcome(Some(request), Notice("error", "Password Change Failed", OrText(Some(message), "Failed to change password")),
                      form, editing)
  }

  /** Any password the endpoint receives was typed twice identically and is long enough. */
  lemma SentPasswordValid(form: PasswordForm, editing: bool, api: ApiResult<()>)
    requires ChangePassword(form, editing, api).request.Some?
    ensures var sent := ChangePassword(form, editing, api).request.value.newPassword;
            sent == form.confirmPassword && Utf16Length(sent) >= MinLength
  {
  }

  /** After a successful change the next press, on the cleared form, sends nothing. */
  lemma ClearedFormRejected(form: PasswordForm, editing: bool, api: ApiResult<()>, api2: ApiResult<()>)
    requires ChangePassword(form, editing, api).request.Some? && api.ApiOk?
    ensures var next := ChangePassword(form, editing, api);
            ChangePassword(next.form, next.editing, api2).request.None?
  {
  }
}

=== FILE: realtime.dfy ===
/** The pure parts of the push channel shared by the responder dashboards: the online
    roster updates and the mapping of pushed notifications to notification types. */
module Realtime {
  import opened Wrappers
  import opened Seqs
  import opened JsValues
  import opened Domain
  import opened Store

  /** The roster entry a `user-location-update` is about (`u.userId === data.userId`). */
  function IsUser(userId: Option<string>): OnlineUser -> bool {
    (u: OnlineUser) => u.userId == userId
  }

  /** `user-location-update`: the first roster entry with the event's `userId` gets the
      event's location; nothing else changes and nobody is added. */
  function UpdateLocation(roster: seq<OnlineUser>, userId: Option<string>, location: Option<Coords>): (r: seq<OnlineUser>)
    ensures |r| == |roster|
    ensures FindIndex(roster, IsUser(userId)) == -1 ==> r == roster
    ensures var k := FindIndex(roster, IsUser(userId));
            k >= 0 ==> r[k] == roster[k].(location := location)
                       && forall i :: 0 <= i < |roster| && i != k ==> r[i] == roster[i]
  {
    var k := FindIndex(roster, IsUser(userId));
    if k == -1 then roster else roster[k := roster[k].(location := location)]
  }

  /** A location update never adds, removes, reorders or renames anyone: only `location`
      values change. */
  lemma UpdateLocationKeepsRoster(roster: seq<OnlineUser>, userId: Option<string>, location: Option<Coords>)
    ensures var r := UpdateLocation(roster, userId, location);
            forall i :: 0 <= i < |roster| ==> r[i].(location := roster[i].location) == roster[i]
  {
  }

  /** Repeating a location update changes nothing further. */
  lemma UpdateLocationIdempotent(roster: seq<OnlineUser>, userId: Option<string>, location: Option<Coords>)
    ensures var once := UpdateLocation(roster, userId, location);
            UpdateLocation(once, userId, location) == once
  {
    var once := UpdateLocation(roster, userId, location);
    var k := FindIndex(roster, IsUser(userId));
    assert forall i :: 0 <= i < |roster| ==> once[i].userId == roster[i].userId;
    assert forall i :: 0 <= i < |roster| ==> IsUser(userId)(once[i]) == IsUser(userId)(roster[i]);
    var k2 := FindIndex(once, IsUser(userId));
    if k == -1 {
      assert once == roster;
    } else {
      assert k2 == k;
    }
  }

  /** The `type` of a notification raised for a `newNotification` push. */
  function PushKind(kind: Option<string>): (k: string)
    ensures kind == Some("alert_responded") ==> k == "success"
    ensures kind == Some("alert") ==> k == "warning"
    ensures kind !in {Some("alert_responded"), Some("alert")} ==> k == "info"
  {
    match kind
    case Some("alert_responded") => "success"
    case Some("alert_resolved") => "info"
    case Some("alert") => "warning"
    case _ => "info"
  }

  /** `newNotification`: the pushed title and message with their defaults, and the mapped type. */
  function PushNotice(kind: Option<string>, title: Option<string>, message: Option<string>): (n: NotificationInput)
    ensures n.kind == Some(PushKind(kind))
    ensures n.title == Some(OrText(title, "Notification"))
    ensures n.message == Some(OrText(message, "You have a new notification."))
  {
    Notice(PushKind(kind), OrText(title, "Notification"), OrText(message, "You have a new notification."))
  }

  /** Every pushed notification is shown in one of the panel's four known types. */
  lemma PushNoticeKnownKind(kind: Option<string>, title: Option<string>, message: Option<string>, now: int, nowIso: string)
    ensures ShownKind(Stamp(PushNotice(kind, title, message), now, nowIso)) == PushKind(kind)
    ensures PushKind(kind) in {"success", "warning", "info"}
  {
  }
}

=== FILE: seqs.dfy ===
/** Order-preserving filtering, counting and prefixes over sequences: the
    reference definitions every list view of the dashboards is stated against. */
module Seqs {

  /** `a` is obtained from `b` by deleting elements (greedy matching decides it). */
  predicate Subseq<T(==)>(a: seq<T>, b: seq<T>)
    decreases |b|
  {
    if |a| == 0 then true
    else if |b| == 0 then false
    else if a[0] == b[0] then Subseq(a[1..], b[1..])
    else Subseq(a, b[1..])
  }

  /** `Array.prototype.filter`: the elements satisfying `p`, in their original order. */
  function Filter<T(==,!new)>(s: seq<T>, p: T -> bool): (r: seq<T>)
    ensures |r| <= |s|
    ensures forall x :: x in r <==> x in s && p(x)
    ensures forall x :: multiset(r)[x] == if p(x) then multiset(s)[x] else 0
    ensures Subseq(r, s)
  {
    if |s| == 0 then []
    else
      var rest := Filter(s[1..], p);
      assert s == [s[0]] + s[1..];
      assert multiset(s) == multiset{s[0]} + multiset(s[1..]);
      if p(s[0]) then
        var r := [s[0]] + rest;
        assert r[1..] == rest;
        r
      else
        assert |rest| > 0 ==> rest[0] != s[0] by {
          if |rest| > 0 { assert rest[0] in rest; }
        }
        rest
  }

  /** The number of elements satisfying `p` (`s.filter(p).length`). */
  function Count<T(==)>(s: seq<T>, p: T -> bool): (n: nat)
    ensures n <= |s|
    ensures n == 0 <==> forall i :: 0 <= i < |s| ==> !p(s[i])
  {
    if |s| == 0 then 0
    else
      var k := Count(s[1..], p);
      assert forall i :: 1 <= i < |s| ==> s[i] == s[1..][i - 1];
      (if p(s[0]) then 1 else 0) + k
  }

  /** Filtering keeps exactly as many elements as `Count` counts. */
  lemma {:induction false} FilterLength<T(!new)>(s: seq<T>, p: T -> bool)
    ensures |Filter(s, p)| == Count(s, p)
  {
    if |s| > 0 {
      FilterLength(s[1..], p);
    }
  }

  /** A filter whose predicate holds of every element is the identity. */
  lemma {:induction false} FilterAll<T(!new)>(s: seq<T>, p: T -> bool)
    requires forall i :: 0 <= i < |s| ==> p(s[i])
    ensures Filter(s, p) == s
  {
    if |s| > 0 {
      assert forall i :: 0 <= i < |s[1..]| ==> s[1..][i] == s[i + 1];
      FilterAll(s[1..], p);
      assert s == [s[0]] + s[1..];
    }
  }

  /** One step of `Filter`: the head is kept iff it satisfies `p`. */
  lemma FilterCons<T(!new)>(s: seq<T>, p: T -> bool)
    requires |s| > 0
    ensures Filter(s, p) == (if p(s[0]) then [s[0]] else []) + Filter(s[1..], p)
  {
  }

  /** Counts of two predicates that never hold together add up to at most the length. */
  lemma {:induction false} CountDisjoint<T>(s: seq<T>, p: T -> bool, q: T -> bool)
    requires forall x :: !(p(x) && q(x))
    ensures Count(s, p) + Count(s, q) <= |s|
  {
    if |s| > 0 {
      CountDisjoint(s[1..], p, q);
    }
  }

  /** A predicate and its negation count every element exactly once. */
  lemma {:induction false} CountComplement<T(!new)>(s: seq<T>, p: T -> bool, q: T -> bool)
    requires forall x :: p(x) <==> !q(x)
    ensures Count(s, p) + Count(s, q) == |s|
  {
    if |s| > 0 {
      CountComplement(s[1..], p, q);
    }
  }

  /** `b` is what remains of `a` after dropping some elements from its front. */
  predicate IsSuffix<T(==)>(b: seq<T>, a: seq<T>) {
    |a| >= |b| && a[|a| - |b|..] == b
  }

  lemma SuffixTransitive<T>(c: seq<T>, b: seq<T>, a: seq<T>)
    requires IsSuffix(c, b) && IsSuffix(b, a)
    ensures IsSuffix(c, a)
  {
    assert a[|a| - |c|..] == b[|b| - |c|..];
  }

  /** `s.map(f)`: one image per element, in order. */
  function Map<T, U>(s: seq<T>, f: T -> U): (r: seq<U>)
    ensures |r| == |s|
    ensures forall i :: 0 <= i < |s| ==> r[i] == f(s[i])
  {
    if |s| == 0 then [] else [f(s[0])] + Map(s[1..], f)
  }

  /** `s.slice(0, n)`: the first `n` elements, or all of them when there are fewer. */
  function Take<T>(s: seq<T>, n: nat): (r: seq<T>)
    ensures |r| == if |s| < n then |s| else n
    ensures r == s[..|r|]
  {
    if |s| <= n then s else s[..n]
  }

  /** `findIndex`: the first index whose element satisfies `p`. */
  function FindIndex<T>(s: seq<T>, p: T -> bool): (r: int)
    ensures -1 <= r < |s|
    ensures r == -1 <==> forall i :: 0 <= i < |s| ==> !p(s[i])
    ensures r >= 0 ==> p(s[r]) && forall i :: 0 <= i < r ==> !p(s[i])
  {
    if |s| == 0 then -1
    else if p(s[0]) then 0
    else
      var k := FindIndex(s[1..], p);
      assert forall i :: 1 <= i < |s| ==> s[i] == s[1..][i - 1];
      if k == -1 then -1 else k + 1
  }

  /** `s.map(x => p(x) ? f(x) : x)`: rewrites the elements satisfying `p` in place. */
  function MapIf<T>(s: seq<T>, p: T -> bool, f: T -> T): (r: seq<T>)
    ensures |r| == |s|
    ensures forall i :: 0 <= i < |s| && p(s[i]) ==> r[i] == f(s[i])
    ensures forall i :: 0 <= i < |s| && !p(s[i]) ==> r[i] == s[i]
  {
    if |s| == 0 then []
    else [if p(s[0]) then f(s[0]) else s[0]] + MapIf(s[1..], p, f)
  }
}

=== FILE: settings.dfy ===
/** The settings page: the profile form, what saving it sends, and the notification
    channel switches. Changing the password is `Passwords.ChangePassword`. */
module Settings {
  import opened Wrappers
  import opened JsValues
  import opened Domain
  import opened Store

  /** The profile form; every field is a string, empty when unknown. */
  datatype ProfileForm = ProfileForm(name: string, email: string, contactNumber: string,
                                     address: string, userType: string, status: string)

  const BlankForm := ProfileForm("", "", "", "", "", "")

  /** Filling the form from the signed-in user: missing fields become `''`. Without a
      user the form is left as it is. */
  function InitForm(user: Option<User>, form: ProfileForm): (r: ProfileForm)
    ensures user.None? ==> r == form
    ensures user.Some? ==>
              r == ProfileForm(OrText(user.value.name, ""), OrText(user.value.email, ""),
                               OrText(user.value.contactNumber, ""), OrText(user.value.address, ""),
                               OrText(user.value.userType, ""), OrText(user.value.status, ""))
  {
    match user
    case None => form
    case Some(u) =>
      ProfileForm(u.name.GetOr(""), u.email.GetOr(""), u.contactNumber.GetOr(""),
                  u.address.GetOr(""), u.userType.GetOr(""), u.status.GetOr(""))
  }

  /** With a user, the result owes nothing to what the form held before, and a user
      with every field set reads back exactly. */
  lemma InitFormFromUserOnly(u: User, before: ProfileForm, other: ProfileForm)
    ensures InitForm(Some(u), before) == InitForm(Some(u), other)
    ensures u.name.Some? && u.email.Some? && u.contactNumber.Some? && u.address.Some?
            && u.userType.Some? && u.status.Some? ==>
              InitForm(Some(u), before) == ProfileForm(u.name.value, u.email.value, u.contactNumber.value,
                                                       u.address.value, u.userType.value, u.status.value)
  {
  }

  /** The body of the profile update: only the three editable fields. */
  datatype ProfileUpdate = ProfileUpdate(name: string, contactNumber: string, address: string)

  function ProfileRequest(form: ProfileForm): (p: ProfileUpdate)
    ensures p.name == form.name && p.contactNumber == form.contactNumber && p.address == form.address
  {
    ProfileUpdate(form.name, form.contactNumber, form.address)
  }

  /** The read-only fields (email, role, status) never reach the request. */
  lemma ProfileRequestIgnoresReadOnly(form: ProfileForm, email: string, userType: string, status: string)
    ensures ProfileRequest(form.(email := email, userType := userType, status := status)) == ProfileRequest(form)
  {
  }

  /** Saving a freshly initialised form sends the user's own name, number and address. */
  lemma SaveUntouchedForm(u: User, form: ProfileForm)
    ensures ProfileRequest(InitForm(Some(u), form)) ==
              ProfileUpdate(OrText(u.name, ""), OrText(u.contactNumber, ""), OrText(u.address, ""))
  {
  }

  /** The notice after saving. */
  function SaveNotice(api: ApiResult<()>): (n: NotificationInput)
    ensures api.ApiOk? ==> n == Notice("success", "Profile Updated", "Your profile information has been saved successfully.")
    ensures api.ApiError? ==> n == Notice("error", "Update Failed", OrText(Some(api.message), "Failed to update profile"))
  {
    match api
    case ApiOk(_) => Notice("success", "Profile Updated", "Your profile information has been saved successfully.")
    case ApiError(message) => Notice("error", "Update Failed", OrText(Some(message), "Failed to update profile"))
  }

  // ---------------------------------------------------------------- notification switches

  datatype Channel = EmailNotifications | SmsNotifications | PushNotifications | EmergencyAlerts

  datatype ChannelSettings = ChannelSettings(email: bool, sms: bool, push: bool, emergency: bool)

  /** Every channel starts switched on. */
  const DefaultChannels := ChannelSettings(true, true, true, true)

  function Enabled(s: ChannelSettings, c: Channel): bool {
    match c
    case EmailNotifications => s.email
    case SmsNotifications => s.sms
    case PushNotifications => s.push
    case EmergencyAlerts => s.emergency
  }

  /** `{ ...settings, [key]: !value }`: one switch flips, the others stay. */
  function Toggle(s: ChannelSettings, c: Channel): (r: ChannelSettings)
    ensures Enabled(r, c) == !Enabled(s, c)
    ensures forall d :: d != c ==> Enabled(r, d) == Enabled(s, d)
  {
    match c
    case EmailNotifications => s.(email := !s.email)
    case SmsNotifications => s.(sms := !s.sms)
    case PushNotifications => s.(push := !s.push)
    case EmergencyAlerts => s.(emergency := !s.emergency)
  }

  /** Flipping a switch twice restores the settings; flips of different switches commute. */
  lemma ToggleLaws(s: ChannelSettings, c: Channel, d: Channel)
    ensures Toggle(Toggle(s, c), c) == s
    ensures Toggle(Toggle(s, c), d) == Toggle(Toggle(s, d), c)
  {
  }
}

=== FILE: sidebar.dfy ===
/** The sidebar's menu, computed from the signed-in user's role. */
module Sidebar {
  import opened Wrappers
  import opened JsValues
  import opened Domain

  datatype MenuItem = MenuItem(caption: string, path: string)

  /** The three entries every role sees, in order. */
  function BaseItems(user: Option<User>): seq<MenuItem> {
    [MenuItem("Dashboard", "/dashboard/" + Interpolate(UserType(user))),
     MenuItem("Live Map", "/map"),
     MenuItem("My Alerts", "/alerts")]
  }

  /** `user?.userType`. */
  function UserType(user: Option<User>): Option<string> {
    if user.Some? then user.value.userType else None
  }

  const SettingsItem := MenuItem("Settings", "/settings")

  predicate IsAdmin(user: Option<User>) {
    UserType(user) == Some("admin")
  }

  /** `getMenuItems`: administrators get three extra entries before Settings. */
  function MenuItems(user: Option<User>): (r: seq<MenuItem>)
    ensures |r| == if IsAdmin(user) then 7 else 4
    ensures r[..3] == BaseItems(user)
    ensures r[|r| - 1] == SettingsItem
    ensures IsAdmin(user) ==> r[3..6] == [MenuItem("User Management", "/users"), MenuItem("Analytics", "/analytics"),
                                         MenuItem("System Logs", "/logs")]
  {
    if IsAdmin(user) then
      BaseItems(user) + [MenuItem("User Management", "/users"), MenuItem("Analytics", "/analytics"),
                         MenuItem("System Logs", "/logs"), SettingsItem]
    else BaseItems(user) + [SettingsItem]
  }

  /** The entries are keyed by path, and no two paths coincide, whatever the role string. */
  lemma PathsDistinct(user: Option<User>)
    ensures var r := MenuItems(user);
            forall i, j :: 0 <= i < j < |r| ==> r[i].path != r[j].path
  {
    var r := MenuItems(user);
    var dash := "/dashboard/" + Interpolate(UserType(user));
    assert dash[1] == 'd';
    forall i, j | 0 <= i < j < |r|
      ensures r[i].path != r[j].path
    {
      if i == 0 {
        assert |r[j].path| > 1 && r[j].path[1] != 'd';
      }
    }
  }

  /** Every role's menu begins with its own dashboard and is never empty of Settings. */
  lemma DashboardLeadsToOwnRole(u: User)
    ensures MenuItems(Some(u))[0].path == "/dashboard/" + Interpolate(u.userType)
    ensures SettingsItem in MenuItems(Some(u))
  {
    var r := MenuItems(Some(u));
    assert r[|r| - 1] == SettingsItem;
  }
}

=== FILE: signup.dfy ===
/** Registering an account: the two password checks, the request body without the
    confirmation field, and what the page does with the result. */
module Signup {
  import opened Wrappers
  import opened JsValues
  import opened Domain
  import Passwords

  datatype SignupForm = SignupForm(name: string, email: string, password: string, confirmPassword: string,
                                   contactNumber: string, userType: string, address: string)

  /** The registration body: the form without `confirmPassword`. */
  datatype Registration = Registration(name: string, email: string, password: string,
                                       contactNumber: string, userType: string, address: string)

  /** The form's initial state: every field empty and the citizen role chosen. */
  const InitialForm := SignupForm("", "", "", "", "", "citizen", "")

  function Payload(form: SignupForm): Registration {
    Registration(form.name, form.email, form.password, form.contactNumber, form.userType, form.address)
  }

  /** The form a registration body and a confirmation came from. */
  function WithConfirmation(p: Registration, confirm: string): SignupForm {
    SignupForm(p.name, p.email, p.password, confirm, p.contactNumber, p.userType, p.address)
  }

  /** Stripping the confirmation loses nothing else: the form is recovered from the body
      and its confirmation, and the body depends on no other field being dropped. */
  lemma PayloadStripsOnlyConfirmation(form: SignupForm, other: string)
    ensures WithConfirmation(Payload(form), form.confirmPassword) == form
    ensures Payload(form.(confirmPassword := other)) == Payload(form)
    ensures Payload(WithConfirmation(Payload(form), other)) == Payload(form)
  {
  }

  /** What `register` resolves to: success with the stored user, a refusal with an
      optional message, or a thrown error. */
  datatype RegisterResult = Registered(user: Option<User>) | Refused(error: Option<string>) | Threw

  /** What the page ends up doing. */
  datatype SubmitOutcome = ShowError(message: string) | NavigateTo(path: string)

  /** The validation error, if any: the mismatch is reported before the length. */
  function ValidationError(form: SignupForm): (e: Option<string>)
    ensures e == Some("Passwords do not match") <==> form.password != form.confirmPassword
    ensures e == Some("Password must be at least 6 characters") <==>
              form.password == form.confirmPassword && Utf16Length(form.password) < Passwords.MinLength
    ensures e.None? <==> Passwords.Check(form.password, form.confirmPassword) == Passwords.Acceptable
  {
    match Passwords.Check(form.password, form.confirmPassword)
    case Mismatch => Some("Passwords do not match")
    case TooShort => Some("Password must be at least 6 characters")
    case Acceptable => None
  }

  /** `handleSubmit`. `sent` is the body passed to `register`, if it was called. A
      successful result without a `user` throws on `result.user.userType`. */
  datatype Submitted = Submitted(sent: Option<Registration>, outcome: SubmitOutcome)

  function Submit(form: SignupForm, result: RegisterResult): (r: Submitted)
    ensures r.sent.Some? <==> ValidationError(form).None?
    ensures r.sent.Some? ==> r.sent.value == Payload(form)
    ensures r.sent.None? ==> r.outcome == ShowError(ValidationError(form).value)
    ensures r.sent.Some? && result.Registered? && result.user.Some? ==>
              r.outcome == NavigateTo("/dashboard/" + Interpolate(result.user.value.userType))
    ensures r.sent.Some? && result.Refused? ==>
              r.outcome == ShowError(OrText(result.error, "Registration failed. Please try again."))
    ensures r.sent.Some? && (result.Threw? || (result.Registered? && result.user.None?)) ==>
              r.outcome == ShowError("An error occurred. Please try again.")
  {
    match ValidationError(form)
    case Some(message) => Submitted(None, ShowError(message))
    case None =>
      var outcome := match result
        case Registered(Some(u)) => NavigateTo("/dashboard/" + Interpolate(u.userType))
        case Refused(error) => ShowError(OrText(error, "Registration failed. Please try again."))
        case _ => ShowError("An error occurred. Please try again.");
      Submitted(Some(Payload(form)), outcome)
  }

  /** The page navigates only after sending a body whose password was confirmed and long
      enough, and an error is always a non-empty message. */
  lemma NavigationImpliesValidPassword(form: SignupForm, result: RegisterResult)
    ensures Submit(form, result).outcome.NavigateTo? ==>
              form.password == form.confirmPassword && Utf16Length(form.password) >= Passwords.MinLength
    ensures Submit(form, result).outcome.ShowError? ==> |Submit(form, result).outcome.message| > 0
  {
  }

  /** The untouched form is refused with the length error: both passwords are empty. */
  lemma InitialFormTooShort(result: RegisterResult)
    ensures Submit(InitialForm, result) == Submitted(None, ShowError("Password must be at least 6 characters"))
  {
  }
}

=== FILE: sorting.dfy ===
/** Newest-first ordering of alert lists: `list.sort((a, b) => new Date(b.createdAt) -
    new Date(a.createdAt))`. The comparator is only consistent when every alert has a
    `createdAt`, so that is required. */
module NewestFirst {
  import opened Domain

  predicate AllDated(s: seq<Alert>) {
    forall i :: 0 <= i < |s| ==> s[i].createdAt.Some?
  }

  /** Creation times never increase along the list. */
  predicate Newest(s: seq<Alert>)
    requires AllDated(s)
  {
    forall i, j :: 0 <= i < j < |s| ==> s[i].createdAt.value >= s[j].createdAt.value
  }

  /** Places `a` before the first alert that is not newer than it. */
  function Insert(a: Alert, s: seq<Alert>): (r: seq<Alert>)
    requires a.createdAt.Some? && AllDated(s) && Newest(s)
    ensures |r| == |s| + 1
    ensures AllDated(r) && Newest(r)
    ensures multiset(r) == multiset(s) + multiset{a}
    ensures r[0] == a || (|s| > 0 && r[0] == s[0])
  {
    if |s| == 0 || a.createdAt.value >= s[0].createdAt.value then [a] + s
    else
      var rest := Insert(a, s[1..]);
      assert s == [s[0]] + s[1..];
      [s[0]] + rest
  }

  /** The newest-first sort: a permutation of the input ordered by creation time. */
  function Sort(s: seq<Alert>): (r: seq<Alert>)
    requires AllDated(s)
    ensures |r| == |s|
    ensures AllDated(r) && Newest(r)
    ensures multiset(r) == multiset(s)
  {
    if |s| == 0 then []
    else
      assert s == [s[0]] + s[1..];
      Insert(s[0], Sort(s[1..]))
  }

  /** A list that is already newest-first is left exactly as it is. */
  lemma {:induction false} SortKeepsSorted(s: seq<Alert>)
    requires AllDated(s) && Newest(s)
    ensures Sort(s) == s
  {
    if |s| > 0 {
      SortKeepsSorted(s[1..]);
      assert Sort(s[1..]) == s[1..];
      assert s == [s[0]] + s[1..];
    }
  }

  /** Sorting twice is sorting once. */
  lemma SortIdempotent(s: seq<Alert>)
    requires AllDated(s)
    ensures Sort(Sort(s)) == Sort(s)
  {
    SortKeepsSorted(Sort(s));
  }
}

=== FILE: store.dfy ===
/** The two global client stores: the notification queue and the alert store. */
module Store {
  import opened Wrappers
  import opened Seqs
  import opened JsValues
  import opened Domain

  // ---------------------------------------------------------------- notifications

  /** The object a component passes to `addNotification`; `kind` is its `type`. */
  datatype NotificationInput = NotificationInput(
    id: Option<int>,
    timestamp: Option<string>,
    kind: Option<string>,
    title: Option<string>,
    message: Option<string>)

  /** A queued notification: `id` and `timestamp` are always set. */
  datatype Notification = Notification(
    id: int,
    timestamp: string,
    kind: Option<string>,
    title: Option<string>,
    message: Option<string>)

  /** An input that sets only a type, title and message, as the components write them. */
  function Notice(kind: string, title: string, message: string): (n: NotificationInput)
    ensures n.id.None? && n.timestamp.None?
    ensures n.kind == Some(kind) && n.title == Some(title) && n.message == Some(message)
  {
    NotificationInput(None, None, Some(kind), Some(title), Some(message))
  }

  /** `{ id: Date.now(), timestamp: new Date().toISOString(), ...notification }`: the
      generated id and timestamp are defaults that the caller's own fields override.
      The clock is the parameter pair `now`/`nowIso`. */
  function Stamp(input: NotificationInput, now: int, nowIso: string): (n: Notification)
    ensures input.id.Some? ==> n.id == input.id.value
    ensures input.id.None? ==> n.id == now
    ensures input.timestamp.Some? ==> n.timestamp == input.timestamp.value
    ensures input.timestamp.None? ==> n.timestamp == nowIso
    ensures n.kind == input.kind && n.title == input.title && n.message == input.message
  {
    Notification(input.id.GetOr(now), input.timestamp.GetOr(nowIso), input.kind, input.title, input.message)
  }

  /** `addNotification`: the stamped entry goes first and the previous queue follows unchanged. */
  function AddNotification(q: seq<Notification>, input: NotificationInput, now: int, nowIso: string): (r: seq<Notification>)
    ensures |r| == |q| + 1
    ensures r[0] == Stamp(input, now, nowIso)
    ensures r[1..] == q
  {
    [Stamp(input, now, nowIso)] + q
  }

  /** `removeNotification(id)`: drops every entry carrying `id` and keeps the rest in order. */
  function RemoveNotification(q: seq<Notification>, id: int): (r: seq<Notification>)
    ensures forall n: Notification :: n in r ==> n.id != id
    ensures forall n: Notification :: n.id != id ==> multiset(r)[n] == multiset(q)[n]
    ensures Subseq(r, q)
  {
    Filter(q, (n: Notification) => n.id != id)
  }

  /** Removing an id nobody carries leaves the queue as it was. */
  lemma RemoveAbsentId(q: seq<Notification>, id: int)
    requires forall i :: 0 <= i < |q| ==> q[i].id != id
    ensures RemoveNotification(q, id) == q
  {
    FilterAll(q, (n: Notification) => n.id != id);
  }

  /** Dismissing the entry just added, by its generated id, restores a queue in which
      that id did not occur: add and remove are inverse. */
  lemma AddThenRemove(q: seq<Notification>, input: NotificationInput, now: int, nowIso: string)
    requires input.id.None?
    requires forall i :: 0 <= i < |q| ==> q[i].id != now
    ensures RemoveNotification(AddNotification(q, input, now, nowIso), now) == q
  {
    var r := AddNotification(q, input, now, nowIso);
    assert r == [r[0]] + q;
    RemoveAbsentId(q, now);
  }

  /** `clearNotifications`: whatever was queued, the queue becomes empty. */
  function ClearNotifications(q: seq<Notification>): (r: seq<Notification>)
    ensures |r| == 0
  {
    []
  }

  /** After a clear, one add leaves exactly the new entry queued. */
  lemma ClearThenAdd(q: seq<Notification>, input: NotificationInput, now: int, nowIso: string)
    ensures AddNotification(ClearNotifications(q), input, now, nowIso) == [Stamp(input, now, nowIso)]
  {
  }

  /** The panel's rendering of an entry: a known type or `info`, and default texts. */
  function ShownKind(n: Notification): (k: string)
    ensures n.kind.Some? && n.kind.value in {"success", "error", "warning", "info"} ==> k == n.kind.value
    ensures !(n.kind.Some? && n.kind.value in {"success", "error", "warning", "info"}) ==> k == "info"
  {
    if n.kind.Some? && n.kind.value in {"success", "error", "warning", "info"} then n.kind.value else "info"
  }

  function ShownTitle(n: Notification): string {
    OrText(n.title, "Notification")
  }

  function ShownMessage(n: Notification): string {
    OrText(n.message, "You have a new notification.")
  }

  /** The entry a two-argument call `addNotification(text, kind)` queues. The store
      takes one argument and spreads it, and spreading a string contributes only its
      character indices, so neither the text nor the kind reaches `message` or `type`. */
  function SpreadText(text: string, kind: string): (n: NotificationInput)
    ensures n.id.None? && n.timestamp.None?
    ensures n.kind.None? && n.title.None? && n.message.None?
  {
    NotificationInput(None, None, None, None, None)
  }

  /** The entry those calls evidently mean: the text as the message, of the given type. */
  function TextNotice(text: string, kind: string): (n: NotificationInput)
    ensures n.id.None? && n.timestamp.None?
    ensures n.kind == Some(kind) && n.title.None? && n.message == Some(text)
  {
    NotificationInput(None, None, Some(kind), None, Some(text))
  }

  /** Whatever is passed positionally, the panel shows the generic title, the generic
      message and the `info` style. */
  lemma SpreadTextShowsDefaults(text: string, kind: string, now: int, nowIso: string)
    ensures var n := Stamp(SpreadText(text, kind), now, nowIso);
            ShownTitle(n) == "Notification" && ShownMessage(n) == "You have a new notification."
            && ShownKind(n) == "info"
  {
  }

  /** A concrete call: the responder dashboard's "Alert not found" error is shown as an
      informational generic notice. */
  lemma SpreadTextLosesError(now: int, nowIso: string)
    ensures ShownMessage(Stamp(SpreadText("Alert not found", "error"), now, nowIso)) != "Alert not found"
    ensures ShownKind(Stamp(SpreadText("Alert not found", "error"), now, nowIso)) != "error"
  {
  }

  /** The corrected entry shows the caller's text in the caller's style. */
  lemma TextNoticeShowsText(text: string, kind: string, now: int, nowIso: string)
    requires text != "" && kind in {"success", "error", "warning", "info"}
    ensures var n := Stamp(TextNotice(text, kind), now, nowIso);
            ShownMessage(n) == text && ShownKind(n) == kind && ShownTitle(n) == "Notification"
  {
  }

  // ---------------------------------------------------------------- alerts

  /** `useAlertStore`: the alert list and the alert currently in focus. */
  datatype AlertStore = AlertStore(alerts: seq<Alert>, active: Option<Alert>)

  /** `setAlerts`: replaces the whole list; the focused alert is untouched. */
  function SetAlerts(st: AlertStore, alerts: seq<Alert>): (r: AlertStore)
    ensures r.alerts == alerts && r.active == st.active
  {
    st.(alerts := alerts)
  }

  /** `addAlert`: prepends one alert. */
  function AddAlert(st: AlertStore, a: Alert): (r: AlertStore)
    ensures |r.alerts| == |st.alerts| + 1
    ensures r.alerts[0] == a && r.alerts[1..] == st.alerts
    ensures r.active == st.active
  {
    st.(alerts := [a] + st.alerts)
  }

  /** `setActiveAlert`: changes the focus only. */
  function SetActiveAlert(st: AlertStore, a: Option<Alert>): (r: AlertStore)
    ensures r.active == a && r.alerts == st.alerts
  {
    st.(active := a)
  }

  /** `updateAlertStatus(id, status)`: entries whose `id` property equals `id` (two
      missing ids compare equal under `===`) get the new status; nothing else changes. */
  function UpdateAlertStatus(st: AlertStore, id: Option<string>, status: string): (r: AlertStore)
    ensures |r.alerts| == |st.alerts| && r.active == st.active
    ensures forall i :: 0 <= i < |st.alerts| && st.alerts[i].id == id ==> r.alerts[i].status == Some(status)
    ensures forall i :: 0 <= i < |st.alerts| && st.alerts[i].id != id ==> r.alerts[i] == st.alerts[i]
    ensures forall i :: 0 <= i < |st.alerts| ==> r.alerts[i].(status := st.alerts[i].status) == st.alerts[i]
  {
    st.(alerts := SetStatusWhere(st.alerts, id, status))
  }

  function SetStatusWhere(s: seq<Alert>, id: Option<string>, status: string): (r: seq<Alert>)
    ensures |r| == |s|
    ensures forall i :: 0 <= i < |s| ==> r[i] == if s[i].id == id then s[i].(status := Some(status)) else s[i]
  {
    if |s| == 0 then []
    else
      [if s[0].id == id then s[0].(status := Some(status)) else s[0]] + SetStatusWhere(s[1..], id, status)
  }

  /** Applying the same status update twice is the same as applying it once. */
  lemma UpdateAlertStatusIdempotent(st: AlertStore, id: Option<string>, status: string)
    ensures UpdateAlertStatus(UpdateAlertStatus(st, id, status), id, status) == UpdateAlertStatus(st, id, status)
  {
    var once := UpdateAlertStatus(st, id, status);
    var twice := UpdateAlertStatus(once, id, status);
    assert forall i :: 0 <= i < |st.alerts| ==> once.alerts[i].id == st.alerts[i].id;
    assert twice.alerts == once.alerts;
  }
}

=== FILE: wrappers.dfy ===
/** The optional-value datatype used for every JavaScript property that may be absent. */
module Wrappers {

  /** `None` stands for an absent (undefined) property, `Some(v)` for a present one. */
  datatype Option<+T> = None | Some(value: T) {

    /** The value if present, otherwise `default` (JavaScript's `x ?? default`). */
    function GetOr(default: T): T {
      match this
      case Some(v) => v
      case None => default
    }
  }
}
